=== FILE: README.md ===
# Proyecto_QR stock core in Dafny

Proyecto_QR tracks pallets of finished product by QR labels. Three desktop
programs work on one PostgreSQL database:

- `generacionEimpresion.py` prints a batch of labels for a product. Each
  label carries a serial (`NS`), the product id (`PRD`), a cleaned
  description (`DSC`), the lot (`LOT`, the day's `ddmmyy`) and the creation
  and expiry dates (`FEC`, `VTO`). It uses the serial after the higher of
  the highest one recorded in `produccion.stock` for that product and lot
  and the last one this machine generated. None of the three programs
  writes `produccion.stock`.
- `escaner.py` is the inbound ("ingreso") station. The operator scans the
  first and the last label of a run of pallets. The last pallet may be
  partial, holding a number of packs. Each run becomes one `stock_pp`
  range, and the new inbound totals of the product and lot are published
  to a spreadsheet through an outbox table.
- `salida.py` is the outbound ("baja") station. One scanned label is
  located in an inbound range, refused if it was already taken out or if
  the net stock does not cover it, and recorded as one `salidas` row. The
  new net totals are published through the same outbox.

The model keeps the pure part of these programs:

- the label parser `parse_qr_payload` and its two normalisers
  (`text.dfy`, `normalize.dfy`, `qr_payload.dfy`);
- the ledger arithmetic: inbound, outbound and net totals, the published
  stock figures, the snapshot rows and their chunking (`ledger.dfy`);
- the outbox and its flush against an oracle for the web endpoint
  (`outbox.dfy`);
- the inbound station's scan / packs / toggle state machine
  (`scan_flow.dfy`);
- the baja pipeline of the outbound station (`baja.dfy`);
- serial allocation, description cleaning, the label payload and its
  read-back through the parser (`generation.dfy`);
- a few concrete scenarios: the sample label, a partial pallet, and
  ordered delivery through the outbox (`scenarios.dfy`).

`salida.py` carries its own copies of the normalisers (salida.py:105-130),
of `parse_qr_payload` (salida.py:288-317) and of the outbox functions
(salida.py:218-282). They behave as the `escaner.py` versions do, so each
is modelled once and cited at its `escaner.py` lines.

Tables are sequences in insertion order, which is also id and
`created_at` order. SQL `SUM`, `COUNT` and `MAX` are recursive functions.
The spreadsheet endpoint `send_to_sheets` is a function parameter that
answers `Ok`, `NotOk` or `Raise` for each payload. The clock, the save
dialog and the product picker become parameters too.

Behaviours of the code worth noting:

- `parse_qr_payload` has a third error: `int()` of `NS`, or of the
  normalised `PRD`, can fail. This is `NotAnInteger`.
- A scan that cannot be parsed resets the inbound flow to the start scan,
  also while the station waits for packs. A readable scan in that state
  changes nothing.
- A label whose description cleans to blank cannot be read back: the
  parser reports `DSC` as missing.
- The inbound station publishes inbound-only totals, and the outbound
  station publishes net totals, under the same message type.
  `Ledger.PublishedFiguresDiffer` states by how much they differ.

## Model

| member | source | states |
|---|---|---|
| Text.Trim | escaner.py:354 | `str.strip()`: the result has no blank at either end and is no longer than the input |
| Text.TrimIdempotent | escaner.py:354 | stripping stripped text changes nothing |
| Text.TrimKeeps | escaner.py:354 | stripping removes no character other than blanks |
| Text.JoinSplit | escaner.py:357 | joining the pieces of `split("\|")` with `\|` gives back the text |
| Text.SplitJoin | escaner.py:357 | pieces without `\|`, joined with `\|`, split back into the same pieces |
| Text.IntToStringRoundTrip | escaner.py:371 | `int()` reads back every integer Python prints, and the printed form has no surrounding blanks |
| Text.PositiveIntPrinted | escaner.py:575-578 | a count typed as Python prints it is accepted exactly when it is at least 1, and then as itself; "0" and negative counts are refused |
| Normalize.NormalizeId | escaner.py:90-102 | `normalize_id_value` never leaves blanks at the ends |
| Normalize.ProductIdOfNormalizeId | escaner.py:372 | `int(normalize_id_value(s))` succeeds exactly when the stripped text is a decimal with an all-zero fraction, and gives its integer value |
| Normalize.NormalizeIdIdempotent | escaner.py:90-102 | normalising a product code twice is the same as normalising it once |
| Normalize.NormalizeIdOfIntegral | escaner.py:90-102 | every spelling of an integral decimal ("42.0", "+42", "042", with or without surrounding blanks) becomes the integer as Python prints it |
| Normalize.NormalizeIdExample | escaner.py:96-100 | the spreadsheet artifact "42.0" becomes "42" |
| Normalize.LiteralIsIntegralDecimal | escaner.py:96-100 | every literal `int()` accepts is an integral decimal of the same value, so such codes keep their value |
| Normalize.ParseDayMonthYear | escaner.py:111 | `strptime("%d/%m/%y")` gives only existing calendar dates, with years in the pivot window 1969..2068 |
| Normalize.ParseDayMonthYearRoundTrip | escaner.py:111 | every date in the pivot window printed as dd/mm/yy parses back to itself |
| Normalize.PivotYearInverse | escaner.py:111 | the two-digit year pivot is undone by taking the year modulo 100 |
| Normalize.FormatIso | escaner.py:112 | `isoformat()` is YYYY-MM-DD: four digits worth the year, a dash, two digits worth the month, a dash, two digits worth the day, with no `/`, `\|` or `=` |
| Normalize.NormalizeDate | escaner.py:105-115 | `normalize_date_iso` is blank exactly for blank input, has no surrounding blanks, and returns text without `/` stripped and otherwise unchanged |
| Normalize.NormalizeDateByReadability | escaner.py:105-115 | a text `strptime("%d/%m/%y")` reads becomes that date in ISO form, and any other text, slashed or not, comes back stripped rather than as an error |
| Normalize.NormalizeDateRoundTrip | escaner.py:105-115 | every dd/mm/yy date in the pivot window normalises to its ISO form |
| Normalize.NormalizeDateIso | escaner.py:109 | an ISO date passes through unchanged |
| Normalize.NormalizeDateIdempotent | escaner.py:105-115 | normalising a date twice is the same as normalising it once |
| QrPayload.SplitAtFirstEquals | escaner.py:361-362 | a segment is cut at its first `=`: the key is the stripped text before it and the value the stripped text after it, which may hold more `=` |
| QrPayload.FieldsDomain | escaner.py:358-362 | a key is in the dictionary exactly when some segment with `=` has it as its key |
| QrPayload.FieldsLastWins | escaner.py:358-362 | a key maps to the stripped value of the last segment that assigns it |
| QrPayload.FieldsTrimmed | escaner.py:362 | every key and every value of the dictionary is stripped |
| QrPayload.FieldsAppend | escaner.py:359-362 | a segment without `=` leaves the dictionary as it is; one with `=` sets its key to its value |
| QrPayload.Missing | escaner.py:365 | the missing keys are exactly the required keys absent or empty, in the required order |
| QrPayload.NoneMissing | escaner.py:364-367 | nothing is missing exactly when all six keys are present and non-empty |
| QrPayload.MakeRecord | escaner.py:369-376 | the record fails exactly when `NS` or the normalised `PRD` is not an integer, naming `NS` first; otherwise it holds the converted serial and product, the stripped lot and the normalised dates |
| QrPayload.ParseFields | escaner.py:364-376 | missing fields are reported, and only then; a record has the integer serial and product, the stripped lot, and normalised dates |
| QrPayload.ParseReadsSegments | escaner.py:349-378 | on a successful `QrPayload.Parse` each field comes from the last segment of the stripped line that assigns its key: `NS` through `int()`, `PRD` as an integral decimal, `DSC` and `LOT` as stripped, `FEC` and `VTO` normalised |
| QrPayload.ParseIgnoresSurroundingBlanks | escaner.py:354 | blanks around the whole line never change the outcome of a parse |
| QrPayload.ParseSuccess | escaner.py:369-376 | after a successful parse every text field of the record is stripped, and the description and the lot are non-empty |
| QrPayload.UnknownKeyIgnored | escaner.py:364-376 | a key outside the six required ones does not change the result |
| QrPayload.MissingIgnores | escaner.py:365 | a key outside the list does not change which keys are missing |
| Ledger.ContributionExample | escaner.py:205-206 | serials 1..10 with 7 packs on the last pallet are 9 pallets and 7 packs |
| Ledger.InboundAppend | escaner.py:188-212 | inserting a range adds exactly its own contribution to the totals of its product and lot, and nothing to any other |
| Ledger.InboundNonNegative | escaner.py:188-212 | totals over ranges with `inicio <= fin` and `packs_fin >= 0` are never negative |
| Ledger.OutboundAppend | salida.py:373-393 | inserting an outbound row removes exactly its own unit from its product and lot, and nothing from any other |
| Ledger.Describe | salida.py:357-359 | the description is stripped, and blank for a product not in the table |
| Ledger.DescribeListed | salida.py:357-359 | a listed product is described by its own row |
| Ledger.PublishedFiguresDiffer | escaner.py:330-343 | the inbound station's figures exceed the outbound station's by the outbound totals, so they agree only while nothing has gone out |
| Ledger.ProductTotalsSplit | escaner.py:215-244 | a product's snapshot total is one lot's total plus the total of its other lots |
| Ledger.SingleLotProductTotals | escaner.py:215-244 | when a product has one lot, its snapshot total is that lot's total |
| Ledger.SortById | escaner.py:215-244 | `ORDER BY id_producto` yields the same rows in strictly ascending id order |
| Ledger.Snapshot | escaner.py:215-244 | one row per product, in ascending id, and every row is the row of some product |
| Ledger.Chunks | escaner.py:384-386 | every chunk is non-empty and at most `n` long, and all but the last are exactly `n` long |
| Ledger.ChunksFlatten | escaner.py:384-386 | the chunks concatenate to the original list, so no row is lost, repeated or reordered |
| Outbox.Enqueue | escaner.py:259-264 | a queued payload goes last under the next id, and ids stay increasing |
| Outbox.Batch | escaner.py:267-278 | the batch is the first 50 rows in id order, or all of them when fewer |
| Outbox.Acknowledged | escaner.py:317-327 | the count is the length of the run of `Ok` replies at the head of the batch |
| Outbox.AcknowledgedUnique | escaner.py:317-327 | any run of `Ok` replies ended by the batch end or a non-`Ok` reply is that count |
| Outbox.Flush | escaner.py:317-327 | the acknowledged rows are deleted and nothing else is; the queue left is a suffix of the one before, also when the endpoint raises; the exception is raised exactly when the first unacknowledged reply is `Raise` |
| Outbox.Publish | escaner.py:491-499 | the update is queued under the next id and a flush follows: the queue left is the old queue plus the update with exactly the acknowledged prefix deleted, so nothing unacknowledged is lost and the id counter advances by one; the new message is delivered only if everything before it was, and otherwise stays queued last |
| ScanFlow.CommitRange | escaner.py:470-487 | the range is refused exactly when the two scans differ in product or lot; otherwise it spans the smaller to the larger serial with the given packs |
| ScanFlow.CommitSymmetric | escaner.py:482-485 | scanning the two ends in either order commits the same range |
| ScanFlow.Commit | escaner.py:470-516 | a commit is stored exactly when both scans name the same product and lot: the range goes last under the next id, and the report carries it, its pallets and packs, and the totals before plus those; a refused commit stores nothing. Either way the flow returns to the start scan and the toggle is kept |
| ScanFlow.CommitTotals | escaner.py:487-504 | the reported totals are the totals before plus the reported movement, which is the range's pallets and packs |
| ScanFlow.CommitKeepsInv | escaner.py:476-487 | a commit with 0 or a positive count of packs adds at most one well-formed range, last |
| ScanFlow.StepKeepsInv | escaner.py:518-600 | every event keeps each committed range well formed, and commits at most one range, appended |
| ScanFlow.ScanCommits | escaner.py:518-559 | a blank scan changes nothing; a readable scan at the start is kept and the station waits for the end scan; a readable end scan with the toggle on is kept and the station asks for packs; a readable scan during the packs step changes nothing and only reports packs mode; a scan stores a range exactly when it is a readable end scan, with the toggle off, matching the start scan's product and lot, and the range spans the two serials with no packs; an unreadable scan returns to the start scan; no other scan stores anything |
| ScanFlow.RunsCommit | escaner.py:526-590 | from the start scan, two readable scans commit, with the toggle off, exactly when they name the same product and lot, the range of the two serials with no packs; with the toggle on the second scan asks for packs and a count of at least 1 then commits the same range with those packs; the station is back at the start scan after the commit or refusal |
| ScanFlow.PacksCommits | escaner.py:561-590 | outside the packs step nothing happens; with the toggle on, text that is not an integer of at least 1 keeps the station waiting, and a valid count stores a matching pair with that many packs; with the toggle off the pair is stored with no packs; nothing else is stored |
| ScanFlow.ToggleCommits | escaner.py:592-600 | switching the toggle off in the packs step stores a matching pair with no packs and returns to the start scan; any other change only records the toggle's position |
| ScanFlow.Handle | escaner.py:470-516 | the station's state follows the step alone; after a commit the inbound totals are queued and flushed, leaving the old queue plus the update minus exactly the acknowledged prefix; otherwise the outbox is untouched and nothing is sent |
| Baja.FindRange | salida.py:323-342 | the earliest range of the product and lot whose serials include the serial, or none when no range does |
| Baja.AlreadyOut | salida.py:404-416 | true exactly when an outbound row has the same product, lot and serial |
| Baja.InsertSalida | salida.py:419-430 | the insert succeeds exactly when the label is not yet out, appends the row, and keeps labels unique |
| Baja.RemovingWholeRange | salida.py:520-525 | taking out every serial of a range removes exactly what the range added |
| Baja.ApplyBaja | salida.py:507-544 | a baja is recorded exactly when the label lies in an inbound range, is not out yet, and the net stock covers its unit (one pallet, or the packs of a partial last pallet); it then appends exactly one outbound row and leaves the inbound table as it was |
| Baja.RefusalReasons | salida.py:507-535 | no covering range refuses as not in stock, and a label already out as a duplicate; after those, a pallet is refused exactly when the net pallets are below 1 and packs exactly when the net packs are below those required, each refusal carrying the net figure; the unique constraint never fires |
| Baja.RecordedLabel | salida.py:537-544 | the recorded row is the scanned label, with the scanned text, the earliest covering range and its classification |
| Baja.BajaEffect | salida.py:527-547 | a baja takes exactly one pallet or exactly its packs from its product and lot, leaves that counter non-negative, and changes no other product or lot |
| Baja.NetAppend | salida.py:396-401 | inserting an outbound row takes exactly its unit from the net stock of its own product and lot, and nothing from any other |
| Baja.BajaKeepsUnique | salida.py:200 | bajas keep (product, lot, serial) unique in the outbound table |
| Baja.SecondBajaRefused | salida.py:516-517 | scanning the same label again is refused as already out |
| Baja.ProcessScan | salida.py:495-558 | the tables follow the pipeline alone; after a baja the net totals are queued and flushed, leaving the old queue plus the update minus exactly the acknowledged prefix; otherwise the outbox is untouched and nothing is sent |
| Generation.MaxSerie | generacionEimpresion.py:148-163 | the highest serial of the product and lot, or none when it has no rows |
| Generation.StartSerial | generacionEimpresion.py:166-177 | the start is the larger of the stock maximum and the cached last serial, each 0 when absent |
| Generation.StartAboveStock | generacionEimpresion.py:166-177 | the start is at least every serial of the product and lot recorded in `produccion.stock` |
| Generation.SetLastGenerated | generacionEimpresion.py:180-182 | the cache then reports that serial as the last one of the product and lot |
| Generation.CacheKeyInjective | generacionEimpresion.py:175 | different products or lots have different cache keys |
| Generation.SetLastGeneratedIsolated | generacionEimpresion.py:180-182 | recording a serial leaves every other product and lot's entry as it was |
| Generation.NextBatchAbove | generacionEimpresion.py:166-182 | once the last serial is recorded, the next batch of that product and lot starts above it |
| Generation.SubstitutedClean | generacionEimpresion.py:224 | the substitutions remove every newline, `\|` and `=` |
| Generation.CleanDescription | generacionEimpresion.py:224-226 | the clean description has no newline, `\|` or `=`, is at most 90 characters, and is the stripped substituted text cut to 90 |
| Generation.CleanDescriptionEmpty | generacionEimpresion.py:224-226 | only a description that is blank after substitution cleans to nothing |
| Generation.FormatSerial | generacionEimpresion.py:232 | `{n:06d}` is at least six characters, all digits for a serial of 0 or more |
| Generation.FormatSerialRoundTrip | generacionEimpresion.py:232 | the padded serial reads back through `int()` as the serial, and holds no separator |
| Generation.Lot | generacionEimpresion.py:196 | the lot is six digits: two worth the day, two worth the month and two worth the year modulo 100 |
| Generation.PayloadJoin | generacionEimpresion.py:231-238 | the payload is the `\|`-join of the six segments NS, PRD, DSC, LOT, FEC, VTO, in that order |
| Generation.ReadSix | generacionEimpresion.py:231-238 | six values without `\|`, joined as a payload, read back key by key as the stripped values |
| Generation.PayloadFields | generacionEimpresion.py:231-238 | the scanner splits a payload back into its segments and reads the six values the generator wrote |
| Generation.LabelDataParses | escaner.py:364-376 | a label's dictionary parses to the generator's record, or reports `DSC` missing when the description is blank |
| Generation.PayloadRoundTrip | generacionEimpresion.py:224-238 | every label reads back through the parser as its serial, product, lot, dates and stripped clean description, or as `DSC` missing when that description is blank |
| Generation.Payloads | generacionEimpresion.py:228-238 | the batch holds one payload per serial `start+1 .. start+n`, in order |
| Generation.PrintLabels | generacionEimpresion.py:228-238 | the loop yields the payloads of `start+1 .. start+cantidad`, none when `cantidad` is not positive, and ends on `start+cantidad` |
| Generation.GenerateBatch | generacionEimpresion.py:192-238 | the batch starts after the start serial, prints nothing and records nothing if no file is chosen, and otherwise records its last serial in the cache |
| Generation.GenerateClick | generacionEimpresion.py:342-357 | nothing is generated without a selected product and a quantity that is an integer of at least 1; otherwise a saved batch has that many labels |
| Scenarios.SampleDates | escaner.py:105-115 | "01/01/24" and "01/07/24" normalise to "2024-01-01" and "2024-07-01" |
| Scenarios.SampleLabelParses | escaner.py:349-378 | the sample label `NS=000007\|PRD=42.0\|DSC=Widget\|LOT=010124\|FEC=01/01/24\|VTO=01/07/24` parses to serial 7, product 42, lot "010124" and the two ISO dates |
| Scenarios.PartialPalletNet | salida.py:345-401 | a lone range 1..10 with 7 packs on its last pallet leaves a net stock of 9 pallets and 7 packs |
| Scenarios.OrderedDelivery | escaner.py:317-327 | of three queued updates, a failing first one delivers nothing and keeps all three, a failing second one delivers only the first, and three acknowledgements empty the queue |

## Left out

- Tk / ttkbootstrap widgets, message boxes, status texts, the bell and focus handling. The inbound flow is kept as states and events only.
- psycopg2 connections, the schema and index DDL, `config.json` and the cache file, and the encoding-fallback re-save. Tables are sequences, and the JSON cache keeps only its integer entries.
- HTTP, JSON encoding and the `timestamp` field of the published payload. `send_to_sheets` is an oracle. `outbox_count` is not modelled because it only feeds a status text.
- `retry_sync_snapshot`: its network loop, snapshot id and first/last flags. Only `build_snapshot_rows` and `chunks` are modelled.
- QR images, the reportlab PDF, temporary files and `dividir_texto`, which only lay out the printed text. The six-month expiry from `relativedelta` and the clock are inputs.
- The UI cache entries `ui_gen_producto` and `ui_gen_cantidad`, which only preselect the form.
- `insert_stock_pp` and `insert_salida` failing for database reasons other than the unique constraint. Connection failures are left out too.
- The race between `salida_already_done` and `insert_salida` across stations, and autocommit per statement. The model is one writer at a time.
- Generation.StockRow: the generator's `produccion.stock` table is not connected to the scanner's `stock_pp` ranges (`Ledger.Range`), because none of the three programs writes it. So the model does not claim that a new batch starts above every serial already scanned in.
- Ledger.Snapshot: assumes `id_producto` is a key of the products table. With a repeated id, the source's `GROUP BY p.id_producto, p.descripcion` would return one row per distinct (id, description) pair, and would count each matching range once per repeated product row. No constraint in the three programs makes the id unique.
- Generation.Label: prints `FEC` and `VTO` with four-digit years, as `date.isoformat()` does. The source uses `strftime("%Y-%m-%d")`, which on glibc does not pad years below 1000; such dates do not arise from the clock.
- Ties in `created_at`: the earliest covering range is the first in table order.
- A NULL `packs_fin`, which `salida.py` reads as 0. The model's ranges always carry an integer, as the inbound station writes one.
- Normalize.IntegralDecimal: Python `float()` accepts exponents, `inf`, `nan`, underscores and surrounding blanks and rounds beyond 2^53, and it reads non-ASCII decimal digits (Arabic-Indic `٤٢.0`, say); the model reads those as not integral. Only plain ASCII decimals with an all-zero fraction are read as integers.
- Text.ParseInt: `int()` also accepts underscores between digits and non-ASCII digits. These are read as not integers.
- Normalize.ParseDayMonthYear: `strptime` leniency beyond one- or two-digit day and month and a two-digit year is not modelled.
- Normalize.NormalizeId: only string arguments; the `None` case of `normalize_id_value` does not arise from the parser.
- Generation.FormatSerial: the `-` sign form of negative serials is modelled. Such serials do not arise, since serials start above a maximum that defaults to 0.

=== FILE: baja.dfy ===
/** The outbound (baja) station of salida.py: one scanned label is located
    in an inbound range, checked against earlier bajas and against the net
    stock, and recorded as one `salidas` row; the new net totals are then
    published through the outbox. */
module Baja {
  import opened Results
  import opened Text
  import opened QrPayload
  import opened Ledger
  import opened Outbox

  /** The two tables the station reads and writes. */
  datatype Store = Store(ranges: seq<Range>, salidas: seq<Salida>)

  /** Why a scan is refused; every one leaves the tables unchanged. */
  datatype BajaError =
    | BadScan(cause: ParseError)
    | NotInIngreso
    | AlreadyDone
    | NoPallets(netPallets: int)
    | NotEnoughPacks(netPacks: int, required: int)
    | DuplicateKey

  /** What one Enter in the scan field does: nothing for a blank field, a
      refusal, or the recorded row and the new tables. */
  datatype Outcome =
    | Ignored
    | Rejected(error: BajaError)
    | Recorded(store: Store, salida: Salida)

  /** Range `r` holds serial `serie` of the product and lot. */
  predicate Covers(r: Range, idProducto: int, lote: string, serie: int) {
    RangeFor(r, idProducto, lote) && r.serieInicio <= serie <= r.serieFin
  }

  /** `find_stock_pp_row_for_serial`: the earliest inbound range of the
      product and lot whose serials include `serie`. */
  function FindRange(ranges: seq<Range>, idProducto: int, lote: string, serie: int): (r: Option<Range>)
    ensures r.None? <==> forall i :: 0 <= i < |ranges| ==> !Covers(ranges[i], idProducto, lote, serie)
    ensures r.Some? ==> exists i :: (0 <= i < |ranges| && ranges[i] == r.value
      && Covers(ranges[i], idProducto, lote, serie)
      && (forall j :: 0 <= j < i ==> !Covers(ranges[j], idProducto, lote, serie)))
  {
    if ranges == [] then None
    else if Covers(ranges[0], idProducto, lote, serie) then Some(ranges[0])
    else
      var r := FindRange(ranges[1..], idProducto, lote, serie);
      assert forall i :: 1 <= i < |ranges| ==> ranges[i] == ranges[1..][i - 1];
      r
  }

  /** Row `s` is the baja of serial `serie` of the product and lot. */
  predicate SameLabel(s: Salida, idProducto: int, lote: string, serie: int) {
    s.idProducto == idProducto && s.lote == lote && s.nroSerie == serie
  }

  /** `salida_already_done`. */
  function AlreadyOut(salidas: seq<Salida>, idProducto: int, lote: string, serie: int): (b: bool)
    ensures b <==> exists i :: 0 <= i < |salidas| && SameLabel(salidas[i], idProducto, lote, serie)
  {
    if salidas == [] then false
    else if SameLabel(salidas[0], idProducto, lote, serie) then true
    else
      assert forall i :: 1 <= i < |salidas| ==> salidas[i] == salidas[1..][i - 1];
      AlreadyOut(salidas[1..], idProducto, lote, serie)
  }

  /** The table constraint UNIQUE (id_producto, lote, nro_serie). */
  predicate UniqueLabels(salidas: seq<Salida>) {
    forall i, j :: 0 <= i < j < |salidas| ==>
      !SameLabel(salidas[j], salidas[i].idProducto, salidas[i].lote, salidas[i].nroSerie)
  }

  /** `insert_salida` under the constraint: the row is appended unless its
      label is already there, in which case the database refuses it. */
  function InsertSalida(salidas: seq<Salida>, s: Salida): (r: Result<seq<Salida>, BajaError>)
    ensures r.Success? <==> !AlreadyOut(salidas, s.idProducto, s.lote, s.nroSerie)
    ensures r.Success? ==> r.value == salidas + [s]
    ensures r.Success? && UniqueLabels(salidas) ==> UniqueLabels(r.value)
  {
    if AlreadyOut(salidas, s.idProducto, s.lote, s.nroSerie) then Failure(DuplicateKey)
    else Success(salidas + [s])
  }

  /** The unit a baja of serial `serie` takes from range `r`: the packs of
      the partial last pallet when the serial is the last of a range that
      has one, otherwise one pallet. */
  function Classify(r: Range, serie: int): (c: (Unit, int))
    ensures c.0 == Packs <==> r.packsFin > 0 && serie == r.serieFin
    ensures c.1 == if c.0 == Packs then r.packsFin else 0
  {
    if r.packsFin > 0 && serie == r.serieFin then (Packs, r.packsFin) else (Pallet, 0)
  }

  /** What taking out every serial `from..r.serieFin` of a range removes. */
  function RemovedFrom(r: Range, from: int): Stock
    requires r.serieInicio <= from
    decreases r.serieFin - from
  {
    if from > r.serieFin then Zero
    else
      var c := Classify(r, from);
      Plus(Stock(if c.0 == Pallet then 1 else 0, c.1), RemovedFrom(r, from + 1))
  }

  /** Taking out every label of a range removes exactly what the range
      added: the classification and the inbound formula agree. */
  lemma RemovingWholeRange(r: Range)
    requires WellFormed(r)
    ensures RemovedFrom(r, r.serieInicio) == Contribution(r)
  {
    RemovedFromTail(r, r.serieInicio);
  }

  lemma {:induction false} RemovedFromTail(r: Range, from: int)
    requires WellFormed(r) && r.serieInicio <= from <= r.serieFin
    ensures RemovedFrom(r, from) ==
      Stock((r.serieFin - from + 1) - (if r.packsFin > 0 then 1 else 0), r.packsFin)
    decreases r.serieFin - from
  {
    if from < r.serieFin {
      RemovedFromTail(r, from + 1);
    } else {
      assert RemovedFrom(r, from + 1) == Zero;
    }
  }

  /** The handler of the scan field of salida.py: strip the text, ignore a
      blank field, parse it, and apply the parsed label. */
  function RecordBaja(store: Store, text: string): (o: Outcome)
    ensures Trim(text) == "" <==> o.Ignored?
    ensures Trim(text) != "" && Parse(Trim(text)).Failure? ==> o == Rejected(BadScan(Parse(Trim(text)).error))
    ensures Trim(text) != "" && Parse(Trim(text)).Success? ==> o == ApplyBaja(store, Parse(Trim(text)).value, Trim(text))
  {
    var raw := Trim(text);
    if raw == "" then Ignored
    else match Parse(raw)
      case Failure(e) => Rejected(BadScan(e))
      case Success(rec) => ApplyBaja(store, rec, raw)
  }

  /** The net stock of the label's product and lot covers the unit its
      baja takes: one pallet, or the loose packs of a partial last pallet. */
  predicate Covered(store: Store, rec: ScanRecord, r: Range) {
    var net := NetStock(store.ranges, store.salidas, rec.idProducto, Trim(rec.lote));
    if Classify(r, rec.nroSerie).0 == Pallet then net.pallets >= 1
    else net.packs >= Classify(r, rec.nroSerie).1
  }

  /** A baja goes through exactly when the label was scanned in, has not
      been taken out yet, and the net stock covers its unit. */
  predicate Admissible(store: Store, rec: ScanRecord) {
    var found := FindRange(store.ranges, rec.idProducto, Trim(rec.lote), rec.nroSerie);
    && found.Some?
    && !AlreadyOut(store.salidas, rec.idProducto, Trim(rec.lote), rec.nroSerie)
    && Covered(store, rec, found.value)
  }

  /** The steps after a successful parse: locate the inbound range, refuse
      a label already taken out, classify, check the net stock, insert. */
  function ApplyBaja(store: Store, rec: ScanRecord, raw: string): (o: Outcome)
    ensures !o.Ignored?
    ensures o.Recorded? ==>
      && o.store.ranges == store.ranges
      && o.store.salidas == store.salidas + [o.salida]
    ensures o.Recorded? <==> Admissible(store, rec)
  {
    var pid := rec.idProducto;
    var lote := Trim(rec.lote);
    var serie := rec.nroSerie;
    match FindRange(store.ranges, pid, lote, serie)
    case None => Rejected(NotInIngreso)
    case Some(r) =>
      if AlreadyOut(store.salidas, pid, lote, serie) then Rejected(AlreadyDone)
      else
        var (unit, qty) := Classify(r, serie);
        var net := NetStock(store.ranges, store.salidas, pid, lote);
        if unit == Pallet && net.pallets < 1 then Rejected(NoPallets(net.pallets))
        else if unit == Packs && net.packs < qty then Rejected(NotEnoughPacks(net.packs, qty))
        else
          var s := Salida(pid, lote, serie, unit, qty, r.id, raw);
          match InsertSalida(store.salidas, s)
          case Failure(e) => Rejected(e)
          case Success(salidas) => Recorded(Store(store.ranges, salidas), s)
  }

  /** A recorded row describes the parsed label (its lot stripped), keeps the
      scanned text, and points at the earliest inbound range covering the
      label, whose classification it carries. */
  lemma RecordedLabel(store: Store, rec: ScanRecord, raw: string)
    requires ApplyBaja(store, rec, raw).Recorded?
    ensures var s := ApplyBaja(store, rec, raw).salida;
      && SameLabel(s, rec.idProducto, Trim(rec.lote), rec.nroSerie)
      && s.rawPayload == raw
      && exists r :: FindRange(store.ranges, rec.idProducto, Trim(rec.lote), rec.nroSerie) == Some(r)
           && r.id == s.stockPpId && Classify(r, rec.nroSerie) == (s.unit, s.packsQty)
  {
    var pid, lote, serie := rec.idProducto, Trim(rec.lote), rec.nroSerie;
    var found := FindRange(store.ranges, pid, lote, serie);
    assert found.Some?;
    var r := found.value;
    var c := Classify(r, serie);
    assert ApplyBaja(store, rec, raw).salida == Salida(pid, lote, serie, c.0, c.1, r.id, raw);
  }

  /** The refusals, in the order the handler checks them, each exactly
      when its check is the first to fail, and the two stock refusals
      carrying the net figure of the label's product and lot (and the
      packs required); the uniqueness constraint never fires, the earlier
      check having caught the duplicate. */
  lemma RefusalReasons(store: Store, rec: ScanRecord, raw: string)
    ensures var o := ApplyBaja(store, rec, raw);
      var pid := rec.idProducto;
      var lote := Trim(rec.lote);
      var serie := rec.nroSerie;
      var found := FindRange(store.ranges, pid, lote, serie);
      var out := AlreadyOut(store.salidas, pid, lote, serie);
      var net := NetStock(store.ranges, store.salidas, pid, lote);
      && (o == Rejected(NotInIngreso) <==> found.None?)
      && (o == Rejected(AlreadyDone) <==> found.Some? && out)
      && (found.Some? && !out ==>
            var c := Classify(found.value, serie);
            && (o == Rejected(NoPallets(net.pallets)) <==> c.0 == Pallet && net.pallets < 1)
            && (o == Rejected(NotEnoughPacks(net.packs, c.1)) <==> c.0 == Packs && net.packs < c.1))
      && (o.Rejected? && (o.error.NoPallets? || o.error.NotEnoughPacks?) ==> found.Some? && !out)
      && o != Rejected(DuplicateKey)
  {
    var pid, lote, serie := rec.idProducto, Trim(rec.lote), rec.nroSerie;
    var found := FindRange(store.ranges, pid, lote, serie);
    if found.Some? && !AlreadyOut(store.salidas, pid, lote, serie) {
      var c := Classify(found.value, serie);
      var net := NetStock(store.ranges, store.salidas, pid, lote);
      if c.0 == Pallet && net.pallets < 1 {
        assert ApplyBaja(store, rec, raw) == Rejected(NoPallets(net.pallets));
      } else if c.0 == Packs && net.packs < c.1 {
        assert ApplyBaja(store, rec, raw) == Rejected(NotEnoughPacks(net.packs, c.1));
      } else {
        assert ApplyBaja(store, rec, raw).Recorded?;
      }
    }
  }

  /** A successful baja appends exactly one row and takes exactly one pallet
      (packs unchanged) or exactly `packsQty` packs (pallets unchanged) from
      the net stock of its product and lot; the counter it takes from stays
      non-negative; every other product and lot keeps its net stock. */
  lemma BajaEffect(store: Store, rec: ScanRecord, raw: string, idProducto: int, lote: string)
    requires ApplyBaja(store, rec, raw).Recorded?
    ensures var o := ApplyBaja(store, rec, raw);
      var s := o.salida;
      var before := NetStock(store.ranges, store.salidas, idProducto, lote);
      var after := NetStock(o.store.ranges, o.store.salidas, idProducto, lote);
      && (SalidaFor(s, idProducto, lote) && s.unit == Pallet ==>
            after == Stock(before.pallets - 1, before.packs) && after.pallets >= 0)
      && (SalidaFor(s, idProducto, lote) && s.unit == Packs ==>
            after == Stock(before.pallets, before.packs - s.packsQty) && after.packs >= 0)
      && (!SalidaFor(s, idProducto, lote) ==> after == before)
  {
    var o := ApplyBaja(store, rec, raw);
    var s := o.salida;
    var pid, lt, serie := rec.idProducto, Trim(rec.lote), rec.nroSerie;
    var r := FindRange(store.ranges, pid, lt, serie).value;
    var c := Classify(r, serie);
    assert s == Salida(pid, lt, serie, c.0, c.1, r.id, raw);
    NetAppend(store.ranges, store.salidas, s, idProducto, lote);
    if SalidaFor(s, idProducto, lote) {
      assert Covered(store, rec, r);
    }
  }

  /** Appending an outbound row takes its unit from the net stock of its own
      product and lot, and from no other. */
  lemma NetAppend(ranges: seq<Range>, salidas: seq<Salida>, s: Salida, idProducto: int, lote: string)
    ensures NetStock(ranges, salidas + [s], idProducto, lote) ==
      if SalidaFor(s, idProducto, lote) then Minus(NetStock(ranges, salidas, idProducto, lote), Removal(s))
      else NetStock(ranges, salidas, idProducto, lote)
  {
    var inT := InboundTotals(ranges, idProducto, lote);
    var outT := OutboundTotals(salidas, idProducto, lote);
    OutboundAppend(salidas, s, idProducto, lote);
    assert NetStock(ranges, salidas, idProducto, lote) == Minus(inT, outT);
    if SalidaFor(s, idProducto, lote) {
      var rm := Removal(s);
      assert NetStock(ranges, salidas + [s], idProducto, lote) == Minus(inT, Plus(outT, rm));
      assert Minus(inT, Plus(outT, rm)) == Minus(Minus(inT, outT), rm);
    } else {
      assert NetStock(ranges, salidas + [s], idProducto, lote) == Minus(inT, outT);
    }
  }

  /** Bajas keep the labels of the outbound table unique. */
  lemma BajaKeepsUnique(store: Store, rec: ScanRecord, raw: string)
    requires UniqueLabels(store.salidas) && ApplyBaja(store, rec, raw).Recorded?
    ensures UniqueLabels(ApplyBaja(store, rec, raw).store.salidas)
  {
  }

  /** Scanning the same label again after a successful baja is refused as a
      duplicate. */
  lemma SecondBajaRefused(store: Store, text: string)
    requires RecordBaja(store, text).Recorded?
    ensures RecordBaja(RecordBaja(store, text).store, text) == Rejected(AlreadyDone)
  {
    var rec := Parse(Trim(text)).value;
    var o := ApplyBaja(store, rec, Trim(text));
    var s := o.salida;
    assert o.store.salidas[|o.store.salidas| - 1] == s;
    assert AlreadyOut(o.store.salidas, s.idProducto, s.lote, s.nroSerie);
    RecordedLabel(store, rec, Trim(text));
  }

  /** The whole Enter handler: the ledger step, then, after a recorded
      baja, the net totals published through the outbox. The tables never
      depend on what the spreadsheet endpoint answers. */
  method ProcessScan(store: Store, products: seq<Product>, queue: Queue<StockUpdate>,
                     text: string, send: StockUpdate -> Reply)
    returns (store': Store, queue': Queue<StockUpdate>, outcome: Outcome, sent: nat)
    ensures outcome == RecordBaja(store, text)
    ensures outcome.Recorded? ==> store' == outcome.store
    ensures !outcome.Recorded? ==> store' == store && queue' == queue
    ensures outcome.Recorded? ==>
      var u := NetUpdate(products, store'.ranges, store'.salidas, outcome.salida.idProducto, outcome.salida.lote);
      IsSuffix(queue'.messages, queue.messages + [Message(queue.nextId, u)])
        && Delivered(queue, u, send, queue', sent)
    ensures !outcome.Recorded? ==> sent == 0
  {
    outcome := RecordBaja(store, text);
    store' := store;
    queue' := queue;
    sent := 0;
    if outcome.Recorded? {
      store' := outcome.store;
      var s := outcome.salida;
      var u := NetUpdate(products, store'.ranges, store'.salidas, s.idProducto, s.lote);
      queue', sent := Publish(queue, u, send);
    }
  }
}

=== FILE: generation.dfy ===
/** The label generator of generacionEimpresion.py: where a batch of serial
    numbers starts (`get_starting_serie`), how the last one is remembered
    (`set_last_generated`), and the text encoded in each QR code of a batch
    (`generar_y_imprimir_qrs`). The PDF and QR images are left out; a batch
    is the list of payload strings, one per label. */
module Generation {
  import opened Results
  import opened Text
  import opened Normalize
  import opened QrPayload

  // ---------------------------------------------------------------------
  //   Start serial
  // ---------------------------------------------------------------------

  /** A row of `produccion.stock`, the table the generator reads its
      highest serial from: one pallet of a product and lot. None of the
      three programs writes this table; the scan station's ranges go to
      `stock_pp` (`Ledger.Range`), which the generator does not read. */
  datatype StockRow = StockRow(idProducto: int, lote: string, nroSerie: int)

  predicate Matches(row: StockRow, idProducto: int, lote: string) {
    row.idProducto == idProducto && row.lote == lote
  }

  /** `MAX(nro_serie)` over the rows of a product and lot; `None` (SQL
      NULL) when there is no such row. */
  function MaxSerie(rows: seq<StockRow>, idProducto: int, lote: string): (m: Option<int>)
    ensures m.None? <==> forall i :: 0 <= i < |rows| ==> !Matches(rows[i], idProducto, lote)
    ensures m.Some? ==> forall i :: 0 <= i < |rows| && Matches(rows[i], idProducto, lote) ==> rows[i].nroSerie <= m.value
    ensures m.Some? ==> exists i :: 0 <= i < |rows| && Matches(rows[i], idProducto, lote) && rows[i].nroSerie == m.value
  {
    if rows == [] then None
    else
      var rest := MaxSerie(rows[1..], idProducto, lote);
      assert forall i :: 1 <= i < |rows| ==> rows[i] == rows[1..][i - 1];
      if !Matches(rows[0], idProducto, lote) then rest
      else
        match rest
        case None => Some(rows[0].nroSerie)
        case Some(v) =>
          Some(if rows[0].nroSerie >= v then rows[0].nroSerie else v)
  }

  /** `get_db_max_serie_for_lote`: `COALESCE(MAX(nro_serie), 0)`. */
  function DbMax(rows: seq<StockRow>, idProducto: int, lote: string): int {
    match MaxSerie(rows, idProducto, lote)
    case None => 0
    case Some(m) => m
  }

  /** The local JSON cache, restricted to its integer entries. */
  type Cache = map<string, int>

  /** `f"gen_ultimo_serie::{id_producto}::{lote}"`. */
  function CacheKey(idProducto: int, lote: string): string {
    "gen_ultimo_serie::" + IntToString(idProducto) + "::" + lote
  }

  /** `int(cache_get(cache_key, 0) or 0)`. */
  function CachedLast(cache: Cache, idProducto: int, lote: string): int {
    var key := CacheKey(idProducto, lote);
    if key in cache then cache[key] else 0
  }

  /** `get_starting_serie`: the larger of the highest serial recorded in
      `produccion.stock` and the last one generated on this machine. */
  function StartSerial(rows: seq<StockRow>, cache: Cache, idProducto: int, lote: string): (s: int)
    ensures s >= DbMax(rows, idProducto, lote) && s >= CachedLast(cache, idProducto, lote)
    ensures s == DbMax(rows, idProducto, lote) || s == CachedLast(cache, idProducto, lote)
  {
    var db := DbMax(rows, idProducto, lote);
    var cached := CachedLast(cache, idProducto, lote);
    if db >= cached then db else cached
  }

  /** The start serial is at least every serial of the product and lot
      recorded in `produccion.stock`. */
  lemma StartAboveStock(rows: seq<StockRow>, cache: Cache, idProducto: int, lote: string, i: int)
    requires 0 <= i < |rows| && Matches(rows[i], idProducto, lote)
    ensures rows[i].nroSerie <= StartSerial(rows, cache, idProducto, lote)
  {
  }

  /** `set_last_generated`. */
  function SetLastGenerated(cache: Cache, idProducto: int, lote: string, last: int): (c: Cache)
    ensures CachedLast(c, idProducto, lote) == last
  {
    cache[CacheKey(idProducto, lote) := last]
  }

  /** Different products or lots have different cache keys: the product
      code is digits and an optional sign, so the first `::` after the
      prefix ends it. */
  lemma CacheKeyInjective(a: int, l: string, b: int, m: string)
    requires CacheKey(a, l) == CacheKey(b, m)
    ensures a == b && l == m
  {
    var prefix := "gen_ultimo_serie::";
    var x := IntToString(a);
    var y := IntToString(b);
    NoColonInInt(a);
    NoColonInInt(b);
    var u := x + ":" + (":" + l);
    var v := y + ":" + (":" + m);
    assert CacheKey(a, l) == prefix + u;
    assert CacheKey(b, m) == prefix + v;
    assert u == (prefix + u)[|prefix|..];
    assert u == v;
    ColonSplit(x, ":" + l, y, ":" + m);
    assert l == (":" + l)[1..];
    IntToStringRoundTrip(a);
    IntToStringRoundTrip(b);
  }

  lemma NoColonInInt(n: int)
    ensures ':' !in IntToString(n)
  {
    if n < 0 {
      var d := NatToString(-n);
      DigitsExclude(d, ':');
      assert IntToString(n) == "-" + d;
    } else {
      DigitsExclude(NatToString(n), ':');
    }
  }

  /** Two texts cut at their first colon agree on both sides of it. */
  lemma ColonSplit(x: string, l: string, y: string, m: string)
    requires ':' !in x && ':' !in y
    requires x + ":" + l == y + ":" + m
    ensures x == y && l == m
  {
    var s := x + ":" + l;
    IndexOfAfterPrefix(x, ':', l);
    IndexOfAfterPrefix(y, ':', m);
    assert x == s[..|x|] == y;
    assert l == s[|x| + 1..] == m;
  }

  /** Recording the last serial of a product and lot leaves every other
      product and lot as it was. */
  lemma SetLastGeneratedIsolated(cache: Cache, idProducto: int, lote: string, last: int, other: int, otherLote: string)
    requires other != idProducto || otherLote != lote
    ensures CachedLast(SetLastGenerated(cache, idProducto, lote, last), other, otherLote)
      == CachedLast(cache, other, otherLote)
  {
    if CacheKey(other, otherLote) == CacheKey(idProducto, lote) {
      CacheKeyInjective(other, otherLote, idProducto, lote);
    }
  }

  /** Once `last` is recorded, the next batch for the same product and lot
      starts strictly above it. */
  lemma NextBatchAbove(rows: seq<StockRow>, cache: Cache, idProducto: int, lote: string, last: int)
    ensures StartSerial(rows, SetLastGenerated(cache, idProducto, lote, last), idProducto, lote) + 1 > last
  {
  }

  // ---------------------------------------------------------------------
  //   Payload
  // ---------------------------------------------------------------------

  /** The longest description a label carries. */
  const DescriptionLimit: nat := 90

  /** `.replace("\n", " ").replace("|", "/").replace("=", "-")` acting on
      one character; no replacement produces a character an earlier one
      removes, so the three passes act character by character. */
  function Substitute(c: char): char {
    if c == '\n' then ' ' else if c == '|' then '/' else if c == '=' then '-' else c
  }

  function SubstituteAll(s: string): (r: string)
    ensures |r| == |s| && forall i :: 0 <= i < |s| ==> r[i] == Substitute(s[i])
  {
    if s == [] then [] else [Substitute(s[0])] + SubstituteAll(s[1..])
  }

  /** The substitutions remove every newline, `|` and `=`. */
  lemma SubstitutedClean(desc: string)
    ensures '|' !in SubstituteAll(desc) && '=' !in SubstituteAll(desc) && '\n' !in SubstituteAll(desc)
  {
    var s := SubstituteAll(desc);
    forall i | 0 <= i < |s|
      ensures s[i] != '|' && s[i] != '=' && s[i] != '\n'
    {
      assert s[i] == Substitute(desc[i]);
    }
  }

  /** `desc_clean`: substituted, stripped, then cut to 90 characters. */
  function CleanDescription(desc: string): (r: string)
    ensures '|' !in r && '=' !in r && '\n' !in r
    ensures |r| <= DescriptionLimit
    ensures var t := Trim(SubstituteAll(desc));
      && |r| == (if |t| > DescriptionLimit then DescriptionLimit else |t|)
      && r == t[..|r|]
  {
    var t := Trim(SubstituteAll(desc));
    CleanChars(desc);
    if |t| > DescriptionLimit then t[..DescriptionLimit] else t
  }

  /** Stripping the substituted text brings none of the three back. */
  lemma CleanChars(desc: string)
    ensures var t := Trim(SubstituteAll(desc)); '|' !in t && '=' !in t && '\n' !in t
  {
    var s := SubstituteAll(desc);
    SubstitutedClean(desc);
    TrimAddsNothing(s, '|');
    TrimAddsNothing(s, '=');
    TrimAddsNothing(s, '\n');
  }

  /** Only an all-blank description cleans to nothing. */
  lemma CleanDescriptionEmpty(desc: string)
    ensures CleanDescription(desc) == [] <==> Trim(SubstituteAll(desc)) == []
  {
  }

  /** `f"{n:06d}"`: at least six characters, zero-padded after the sign. */
  function FormatSerial(n: int): (s: string)
    ensures |s| >= 6
    ensures n >= 0 ==> AllDigits(s)
  {
    if n < 0 then "-" + PadZeros(NatToString(-n), 5)
    else
      PadZerosValue(n, 6);
      PadZeros(NatToString(n), 6)
  }

  /** The padded serial is one field of the payload and reads back as the
      serial. */
  lemma FormatSerialRoundTrip(n: int)
    ensures IsTrimmed(FormatSerial(n)) && '|' !in FormatSerial(n) && '=' !in FormatSerial(n)
    ensures ParseInt(FormatSerial(n)) == Some(n)
  {
    if n < 0 {
      NegativeSerialRoundTrip(n);
    } else {
      var d := PadZeros(NatToString(n), 6);
      PadZerosValue(n, 6);
      DigitsParse(d);
      DigitsExclude(d, '|');
      DigitsExclude(d, '=');
    }
  }

  lemma NegativeSerialRoundTrip(n: int)
    requires n < 0
    ensures IsTrimmed(FormatSerial(n)) && '|' !in FormatSerial(n) && '=' !in FormatSerial(n)
    ensures ParseInt(FormatSerial(n)) == Some(n)
  {
    var d := PadZeros(NatToString(-n), 5);
    PadZerosValue(-n, 5);
    NegativeDigitsParse(d);
    DigitsExclude(d, '|');
    DigitsExclude(d, '=');
    assert 0 - DigitsValue(d) == n;
    assert FormatSerial(n) == "-" + d;
  }

  /** `numero_lote = fecha_actual.strftime("%d%m%y")`: the day, the month
      and the last two digits of the year, two digits each. */
  function Lot(today: Day): (lot: string)
    ensures |lot| == 6 && AllDigits(lot)
    ensures DigitsValue(lot[..2]) == today.day
    ensures DigitsValue(lot[2..4]) == today.month
    ensures DigitsValue(lot[4..]) == today.year % 100
  {
    var dd, mm, yy := Pad2(today.day), Pad2(today.month), Pad2(today.year % 100);
    Pad2Value(today.day);
    Pad2Value(today.month);
    Pad2Value(today.year % 100);
    assert (dd + mm + yy)[..2] == dd && (dd + mm + yy)[2..4] == mm && (dd + mm + yy)[4..] == yy;
    dd + mm + yy
  }

  /** `KEY=value`. */
  function Segment(k: string, v: string): string {
    k + "=" + v
  }

  /** The six segments of a label, in the order they are printed. */
  function Fields6(v0: string, v1: string, v2: string, v3: string, v4: string, v5: string): (r: seq<string>)
    ensures |r| == 6 && r[0] == Segment("NS", v0) && r[1] == Segment("PRD", v1) && r[2] == Segment("DSC", v2)
    ensures r[3] == Segment("LOT", v3) && r[4] == Segment("FEC", v4) && r[5] == Segment("VTO", v5)
  {
    [Segment("NS", v0)] + [Segment("PRD", v1)] + [Segment("DSC", v2)]
    + [Segment("LOT", v3)] + [Segment("FEC", v4)] + [Segment("VTO", v5)]
  }

  /** `payload_qr`: the six segments, separated by `|`. */
  function Payload(ns: int, idProducto: int, desc: string, lot: string, fec: string, vto: string): string {
    Segment("NS", FormatSerial(ns)) + "|" + Segment("PRD", IntToString(idProducto)) + "|" + Segment("DSC", desc)
    + "|" + Segment("LOT", lot) + "|" + Segment("FEC", fec) + "|" + Segment("VTO", vto)
  }

  /** The payload is the `|`-join of its segments. */
  lemma PayloadJoin(ns: int, idProducto: int, desc: string, lot: string, fec: string, vto: string)
    ensures Payload(ns, idProducto, desc, lot, fec, vto)
         == Join(Fields6(FormatSerial(ns), IntToString(idProducto), desc, lot, fec, vto), '|')
  {
    JoinSix(Segment("NS", FormatSerial(ns)), Segment("PRD", IntToString(idProducto)), Segment("DSC", desc),
            Segment("LOT", lot), Segment("FEC", fec), Segment("VTO", vto), '|');
  }

  lemma JoinSix(a: string, b: string, c: string, d: string, e: string, f: string, sep: char)
    ensures Join([a] + [b] + [c] + [d] + [e] + [f], sep)
         == a + [sep] + b + [sep] + c + [sep] + d + [sep] + e + [sep] + f
  {
    var t4 := [e] + [f];
    var t3 := [d] + t4;
    var t2 := [c] + t3;
    var t1 := [b] + t2;
    var t0 := [a] + t1;
    assert [a] + [b] + [c] + [d] + [e] + [f] == t0;
    JoinCons(e, [f], sep);
    JoinCons(d, t4, sep);
    JoinCons(c, t3, sep);
    JoinCons(b, t2, sep);
    JoinCons(a, t1, sep);
  }

  lemma JoinCons(x: string, rest: seq<string>, sep: char)
    requires rest != []
    ensures Join([x] + rest, sep) == x + [sep] + Join(rest, sep)
  {
    assert ([x] + rest)[1..] == rest;
  }

  /** `data` holds the six values the scanner should read from a label. */
  predicate LabelFields(data: map<string, string>, ns: int, idProducto: int, desc: string,
                        lot: string, fec: string, vto: string) {
    && "NS" in data && data["NS"] == FormatSerial(ns)
    && "PRD" in data && data["PRD"] == IntToString(idProducto)
    && "DSC" in data && data["DSC"] == Trim(desc)
    && "LOT" in data && data["LOT"] == lot
    && "FEC" in data && data["FEC"] == fec
    && "VTO" in data && data["VTO"] == vto
  }

  /** A segment `k=v` whose key has no `=` and no surrounding blanks reads
      back as key `k` and value `v` stripped. */
  lemma SegmentReads(k: string, v: string)
    requires '=' !in k && IsTrimmed(k)
    ensures '=' in Segment(k, v) && KeyOf(Segment(k, v)) == k && ValueOf(Segment(k, v)) == Trim(v)
  {
    var p := Segment(k, v);
    IndexOfAfterPrefix(k, '=', v);
    var i := IndexOf(p, '=');
    assert i == |k|;
    assert p[..i] == k;
    assert p[i + 1..] == v;
    TrimTrimmed(k);
  }

  /** Six segments assigning NS, PRD, DSC, LOT, FEC and VTO in turn give a
      dictionary holding those six values. */
  lemma FieldsOfSix(p0: string, p1: string, p2: string, p3: string, p4: string, p5: string,
                    w0: string, w1: string, w2: string, w3: string, w4: string, w5: string)
    requires '=' in p0 && KeyOf(p0) == "NS" && ValueOf(p0) == w0
    requires '=' in p1 && KeyOf(p1) == "PRD" && ValueOf(p1) == w1
    requires '=' in p2 && KeyOf(p2) == "DSC" && ValueOf(p2) == w2
    requires '=' in p3 && KeyOf(p3) == "LOT" && ValueOf(p3) == w3
    requires '=' in p4 && KeyOf(p4) == "FEC" && ValueOf(p4) == w4
    requires '=' in p5 && KeyOf(p5) == "VTO" && ValueOf(p5) == w5
    ensures var data := Fields([p0] + [p1] + [p2] + [p3] + [p4] + [p5]);
      && "NS" in data && data["NS"] == w0
      && "PRD" in data && data["PRD"] == w1
      && "DSC" in data && data["DSC"] == w2
      && "LOT" in data && data["LOT"] == w3
      && "FEC" in data && data["FEC"] == w4
      && "VTO" in data && data["VTO"] == w5
  {
    var a1 := [p0];
    var a2 := a1 + [p1];
    var a3 := a2 + [p2];
    var a4 := a3 + [p3];
    var a5 := a4 + [p4];
    var a6 := a5 + [p5];
    assert a1 == [] + [p0];
    FieldsAppend([], p0);
    FieldsAppend(a1, p1);
    FieldsAppend(a2, p2);
    FieldsAppend(a3, p3);
    FieldsAppend(a4, p4);
    FieldsAppend(a5, p5);
    UpdateChain(Fields(a1), Fields(a2), Fields(a3), Fields(a4), Fields(a5), Fields(a6),
                w0, w1, w2, w3, w4, w5);
  }

  /** Six successive assignments of the six keys. */
  lemma UpdateChain(d1: map<string, string>, d2: map<string, string>, d3: map<string, string>,
                    d4: map<string, string>, d5: map<string, string>, d6: map<string, string>,
                    w0: string, w1: string, w2: string, w3: string, w4: string, w5: string)
    requires d1 == map["NS" := w0] && d2 == d1["PRD" := w1] && d3 == d2["DSC" := w2]
    requires d4 == d3["LOT" := w3] && d5 == d4["FEC" := w4] && d6 == d5["VTO" := w5]
    ensures && "NS" in d6 && d6["NS"] == w0
      && "PRD" in d6 && d6["PRD"] == w1
      && "DSC" in d6 && d6["DSC"] == w2
      && "LOT" in d6 && d6["LOT"] == w3
      && "FEC" in d6 && d6["FEC"] == w4
      && "VTO" in d6 && d6["VTO"] == w5
  {
    KeysDistinct();
  }

  /** The six keys carry no `=` and no surrounding blanks. */
  lemma KeysPlain()
    ensures '=' !in "NS" && IsTrimmed("NS") && '=' !in "PRD" && IsTrimmed("PRD")
    ensures '=' !in "DSC" && IsTrimmed("DSC") && '=' !in "LOT" && IsTrimmed("LOT")
    ensures '=' !in "FEC" && IsTrimmed("FEC") && '=' !in "VTO" && IsTrimmed("VTO")
  {
  }

  lemma KeysDistinct()
    ensures "PRD" != "DSC" && "PRD" != "LOT" && "PRD" != "FEC" && "PRD" != "VTO"
    ensures "DSC" != "LOT" && "DSC" != "FEC" && "DSC" != "VTO"
    ensures "LOT" != "FEC" && "LOT" != "VTO" && "FEC" != "VTO"
  {
    assert "PRD"[0] == 'P' && "DSC"[0] == 'D' && "LOT"[0] == 'L' && "FEC"[0] == 'F' && "VTO"[0] == 'V';
  }

  /** Six values without `|` joined into a label split back into the six
      segments; the line is already stripped when the last value ends in a
      digit. */
  lemma SplitOfSix(v0: string, v1: string, v2: string, v3: string, v4: string, v5: string)
    requires '|' !in v0 && '|' !in v1 && '|' !in v2 && '|' !in v3 && '|' !in v4 && '|' !in v5
    requires v5 != [] && IsDigit(v5[|v5| - 1])
    ensures var p := Join(Fields6(v0, v1, v2, v3, v4, v5), '|');
      && Split(p, '|') == Fields6(v0, v1, v2, v3, v4, v5)
      && Trim(p) == p && HasSeparators(p)
  {
    SixNoBar(v0, v1, v2, v3, v4, v5);
    SplitJoin(Fields6(v0, v1, v2, v3, v4, v5), '|');
    SixStripped(v0, v1, v2, v3, v4, v5);
  }

  lemma SixNoBar(v0: string, v1: string, v2: string, v3: string, v4: string, v5: string)
    requires '|' !in v0 && '|' !in v1 && '|' !in v2 && '|' !in v3 && '|' !in v4 && '|' !in v5
    ensures var parts := Fields6(v0, v1, v2, v3, v4, v5);
      forall i :: 0 <= i < |parts| ==> '|' !in parts[i]
  {
    var parts := Fields6(v0, v1, v2, v3, v4, v5);
    forall i | 0 <= i < |parts|
      ensures '|' !in parts[i]
    {
      var k := ["NS", "PRD", "DSC", "LOT", "FEC", "VTO"][i];
      var v := [v0, v1, v2, v3, v4, v5][i];
      assert parts[i] == k + "=" + v;
      assert '|' !in k;
    }
  }

  lemma SixStripped(v0: string, v1: string, v2: string, v3: string, v4: string, v5: string)
    requires v5 != [] && IsDigit(v5[|v5| - 1])
    ensures var p := Join(Fields6(v0, v1, v2, v3, v4, v5), '|');
      Trim(p) == p && HasSeparators(p)
  {
    var parts := Fields6(v0, v1, v2, v3, v4, v5);
    var p := Join(parts, '|');
    assert p == parts[0] + ['|'] + Join(parts[1..], '|');
    assert p[0] == 'N' && p[2] == '=' && p[|parts[0]|] == '|';
    JoinLast(parts, '|');
    SegmentLast("VTO", v5);
    DigitNotSpace(v5[|v5| - 1]);
    TrimTrimmed(p);
  }

  lemma SegmentLast(k: string, v: string)
    requires v != []
    ensures var s := Segment(k, v); s != [] && s[|s| - 1] == v[|v| - 1]
  {
  }

  /** Six values without `|` joined into a label read back, key by key,
      as the values stripped. */
  lemma ReadSix(v0: string, v1: string, v2: string, v3: string, v4: string, v5: string)
    requires '|' !in v0 && '|' !in v1 && '|' !in v2 && '|' !in v3 && '|' !in v4 && '|' !in v5
    requires v5 != [] && IsDigit(v5[|v5| - 1])
    ensures var p := Join(Fields6(v0, v1, v2, v3, v4, v5), '|');
      var data := Fields(Split(p, '|'));
      && Trim(p) == p && HasSeparators(p)
      && "NS" in data && data["NS"] == Trim(v0)
      && "PRD" in data && data["PRD"] == Trim(v1)
      && "DSC" in data && data["DSC"] == Trim(v2)
      && "LOT" in data && data["LOT"] == Trim(v3)
      && "FEC" in data && data["FEC"] == Trim(v4)
      && "VTO" in data && data["VTO"] == Trim(v5)
  {
    SplitOfSix(v0, v1, v2, v3, v4, v5);
    KeysPlain();
    SegmentReads("NS", v0);
    SegmentReads("PRD", v1);
    SegmentReads("DSC", v2);
    SegmentReads("LOT", v3);
    SegmentReads("FEC", v4);
    SegmentReads("VTO", v5);
    FieldsOfSix(Segment("NS", v0), Segment("PRD", v1), Segment("DSC", v2),
                Segment("LOT", v3), Segment("FEC", v4), Segment("VTO", v5),
                Trim(v0), Trim(v1), Trim(v2), Trim(v3), Trim(v4), Trim(v5));
  }

  /** The scanner splits a label back into its six segments and reads them
      into the dictionary the generator meant. */
  lemma PayloadFields(ns: int, idProducto: int, desc: string, lot: string, fec: string, vto: string)
    requires '|' !in desc
    requires IsTrimmed(lot) && '|' !in lot
    requires PlainDate(fec) && PlainDate(vto)
    ensures var p := Payload(ns, idProducto, desc, lot, fec, vto);
      && Trim(p) == p && HasSeparators(p)
      && LabelFields(Fields(Split(p, '|')), ns, idProducto, desc, lot, fec, vto)
  {
    var v0 := FormatSerial(ns);
    var v1 := IntToString(idProducto);
    FormatSerialRoundTrip(ns);
    IntToStringRoundTrip(idProducto);
    NoBarInInt(idProducto);
    ReadSix(v0, v1, desc, lot, fec, vto);
    PayloadJoin(ns, idProducto, desc, lot, fec, vto);
    TrimTrimmed(v0);
    TrimTrimmed(v1);
    TrimTrimmed(lot);
    PlainDateTrimmed(fec);
    PlainDateTrimmed(vto);
  }

  /** What the payload needs of a date field: digits at both ends, no
      `|`, and nothing for the scanner's date normaliser to change. */
  predicate PlainDate(s: string) {
    |s| >= 1 && IsDigit(s[0]) && IsDigit(s[|s| - 1]) && '|' !in s && NormalizeDate(s) == s
  }

  lemma PlainDateTrimmed(s: string)
    requires PlainDate(s)
    ensures Trim(s) == s
  {
    DigitNotSpace(s[0]);
    DigitNotSpace(s[|s| - 1]);
    TrimTrimmed(s);
  }

  /** An ISO date is a plain date. */
  lemma FormatIsoPlain(d: Day)
    ensures PlainDate(FormatIso(d))
  {
    NormalizeDateIso(d);
  }

  lemma NoBarInInt(n: int)
    ensures '|' !in IntToString(n)
  {
    if n < 0 {
      var d := NatToString(-n);
      DigitsExclude(d, '|');
      assert IntToString(n) == "-" + d;
    } else {
      DigitsExclude(NatToString(n), '|');
    }
  }

  function IfMissing(data: map<string, string>, k: string): seq<string> {
    if Present(data, k) then [] else [k]
  }

  lemma MissingCons(data: map<string, string>, k: string, rest: seq<string>)
    ensures Missing(data, [k] + rest) == IfMissing(data, k) + Missing(data, rest)
  {
    assert ([k] + rest)[1..] == rest;
  }

  /** When DSC is the only required field that is absent or empty, the
      parser names it alone. */
  lemma MissingOnlyDsc(data: map<string, string>)
    requires Present(data, "NS") && Present(data, "PRD") && !Present(data, "DSC")
    requires Present(data, "LOT") && Present(data, "FEC") && Present(data, "VTO")
    ensures Missing(data, Required) == ["DSC"]
  {
    var t5 := ["VTO"];
    var t4 := ["FEC"] + t5;
    var t3 := ["LOT"] + t4;
    var t2 := ["DSC"] + t3;
    var t1 := ["PRD"] + t2;
    var t0 := ["NS"] + t1;
    assert t0 == Required;
    MissingCons(data, "VTO", []);
    assert t5 == ["VTO"] + [];
    MissingCons(data, "FEC", t5);
    MissingCons(data, "LOT", t4);
    MissingCons(data, "DSC", t3);
    MissingCons(data, "PRD", t2);
    MissingCons(data, "NS", t1);
  }

  /** What the scanner makes of a label's dictionary: the generator's
      record, unless the description is blank. */
  lemma LabelDataParses(data: map<string, string>, ns: int, idProducto: int, desc: string, lot: string, fec: string, vto: string)
    requires lot != [] && IsTrimmed(lot)
    requires PlainDate(fec) && PlainDate(vto)
    requires LabelFields(data, ns, idProducto, desc, lot, fec, vto)
    ensures Trim(desc) == [] ==> ParseFields(data) == Failure(MissingFields(["DSC"]))
    ensures Trim(desc) != [] ==>
      ParseFields(data) == Success(ScanRecord(Trim(desc), ns, idProducto, lot, fec, vto))
  {
    if Trim(desc) == [] {
      MissingOnlyDsc(data);
    } else {
      LabelDataComplete(data, ns, idProducto, desc, lot, fec, vto);
    }
  }

  lemma LabelDataComplete(data: map<string, string>, ns: int, idProducto: int, desc: string, lot: string, fec: string, vto: string)
    requires lot != [] && IsTrimmed(lot) && Trim(desc) != []
    requires PlainDate(fec) && PlainDate(vto)
    requires LabelFields(data, ns, idProducto, desc, lot, fec, vto)
    ensures ParseFields(data) == Success(ScanRecord(Trim(desc), ns, idProducto, lot, fec, vto))
  {
    FormatSerialRoundTrip(ns);
    IntToStringRoundTrip(idProducto);
    NoneMissing(data);
    TrimTrimmed(IntToString(idProducto));
    IntToStringIsIntegralDecimal(idProducto);
    ProductIdOfNormalizeId(IntToString(idProducto));
    TrimTrimmed(lot);
  }

  /** A payload with a description that strips to blank reads back as a
      report that DSC is missing. */
  lemma PayloadParsesBlank(ns: int, idProducto: int, desc: string, lot: string, fec: string, vto: string)
    requires '|' !in desc && Trim(desc) == []
    requires lot != [] && IsTrimmed(lot) && '|' !in lot
    requires PlainDate(fec) && PlainDate(vto)
    ensures Parse(Payload(ns, idProducto, desc, lot, fec, vto)) == Failure(MissingFields(["DSC"]))
  {
    var p := Payload(ns, idProducto, desc, lot, fec, vto);
    PayloadFields(ns, idProducto, desc, lot, fec, vto);
    ParseOfStripped(p);
    LabelDataParses(Fields(Split(p, '|')), ns, idProducto, desc, lot, fec, vto);
  }

  /** Any other payload reads back as the record it was printed from. */
  lemma PayloadParsesFull(ns: int, idProducto: int, desc: string, lot: string, fec: string, vto: string)
    requires '|' !in desc && Trim(desc) != []
    requires lot != [] && IsTrimmed(lot) && '|' !in lot
    requires PlainDate(fec) && PlainDate(vto)
    ensures Parse(Payload(ns, idProducto, desc, lot, fec, vto))
         == Success(ScanRecord(Trim(desc), ns, idProducto, lot, fec, vto))
  {
    var p := Payload(ns, idProducto, desc, lot, fec, vto);
    PayloadFields(ns, idProducto, desc, lot, fec, vto);
    ParseOfStripped(p);
    LabelDataParses(Fields(Split(p, '|')), ns, idProducto, desc, lot, fec, vto);
  }

  /** The payload of a label reads back, through `parse_qr_payload`, as the
      serial, product, lot and dates it was printed with, and the stripped
      description; a description that cleans to blank makes the label
      unreadable, the scanner reporting DSC as missing. */
  lemma PayloadRoundTrip(ns: int, idProducto: int, descripcion: string, today: Day, expiry: Day)
    ensures Parse(Label(ns, idProducto, descripcion, today, expiry)) == ReadBack(ns, idProducto, descripcion, today, expiry)
  {
    var lot := Lot(today);
    DigitsExclude(lot, '|');
    DigitNotSpace(lot[0]);
    DigitNotSpace(lot[5]);
    FormatIsoPlain(today);
    FormatIsoPlain(expiry);
    var desc := CleanDescription(descripcion);
    if Trim(desc) == [] {
      PayloadParsesBlank(ns, idProducto, desc, lot, FormatIso(today), FormatIso(expiry));
    } else {
      PayloadParsesFull(ns, idProducto, desc, lot, FormatIso(today), FormatIso(expiry));
    }
  }

  /** The label text of serial `ns`. */
  function Label(ns: int, idProducto: int, descripcion: string, today: Day, expiry: Day): string
  {
    Payload(ns, idProducto, CleanDescription(descripcion), Lot(today), FormatIso(today), FormatIso(expiry))
  }

  /** What the scanner is meant to read from that label. */
  function ReadBack(ns: int, idProducto: int, descripcion: string, today: Day, expiry: Day): Result<ScanRecord, ParseError>
  {
    var desc := Trim(CleanDescription(descripcion));
    if desc == [] then Failure(MissingFields(["DSC"]))
    else Success(ScanRecord(desc, ns, idProducto, Lot(today), FormatIso(today), FormatIso(expiry)))
  }

  // ---------------------------------------------------------------------
  //   A batch
  // ---------------------------------------------------------------------

  /** The payloads of serials start+1 .. start+n for one product, lot and
      pair of dates, in printing order. */
  function Payloads(start: int, n: nat, idProducto: int, desc: string, lot: string, fec: string, vto: string): (r: seq<string>)
    ensures |r| == n
    ensures forall i {:trigger r[i]} :: 0 <= i < n ==> r[i] == Payload(start + 1 + i, idProducto, desc, lot, fec, vto)
  {
    if n == 0 then []
    else
      var first := Payloads(start, n - 1, idProducto, desc, lot, fec, vto);
      var last := Payload(start + n, idProducto, desc, lot, fec, vto);
      assert forall i {:trigger (first + [last])[i]} :: 0 <= i < n - 1 ==> (first + [last])[i] == first[i];
      first + [last]
  }

  /** The loop of `generar_y_imprimir_qrs`: one payload per serial after
      `start`, `cantidad` of them (none when `cantidad` is not positive);
      `last` is the serial it ends on. */
  method PrintLabels(start: int, cantidad: int, idProducto: int, desc: string, lot: string, fec: string, vto: string)
    returns (labels: seq<string>, last: int)
    ensures var n := if cantidad > 0 then cantidad else 0;
      labels == Payloads(start, n, idProducto, desc, lot, fec, vto) && last == start + n
  {
    labels := [];
    last := start;
    var k := 0;
    while k < cantidad
      invariant 0 <= k && (if cantidad > 0 then k <= cantidad else k == 0)
      invariant last == start + k
      invariant labels == Payloads(start, k, idProducto, desc, lot, fec, vto)
    {
      last := last + 1;
      labels := labels + [Payload(last, idProducto, desc, lot, fec, vto)];
      k := k + 1;
    }
  }

  /** `generar_y_imprimir_qrs`: the clock gives `today`, and `expiry` is
      six months later; `saved` is whether the operator picked a file in the
      save dialog. The batch holds the payloads of serials start+1,
      start+2, ... (each of them a `Label` of this product, description and
      pair of dates) and remembers the last serial it used. */
  method GenerateBatch(rows: seq<StockRow>, cache: Cache, idProducto: int, descripcion: string,
                       cantidad: int, today: Day, expiry: Day, saved: bool)
    returns (labels: seq<string>, start: int, cache': Cache)
    ensures start == StartSerial(rows, cache, idProducto, Lot(today))
    ensures !saved ==> labels == [] && cache' == cache
    ensures saved ==> labels == Payloads(start, if cantidad > 0 then cantidad else 0, idProducto,
                                         CleanDescription(descripcion), Lot(today), FormatIso(today), FormatIso(expiry))
    ensures saved ==> cache' == SetLastGenerated(cache, idProducto, Lot(today), start + if cantidad > 0 then cantidad else 0)
  {
    start := StartSerial(rows, cache, idProducto, Lot(today));
    if !saved {
      return [], start, cache;
    }
    var last;
    labels, last := PrintLabels(start, cantidad, idProducto, CleanDescription(descripcion), Lot(today),
                                FormatIso(today), FormatIso(expiry));
    cache' := SetLastGenerated(cache, idProducto, Lot(today), start + if cantidad > 0 then cantidad else 0);
  }

  /** The click on "generate": a product must be selected and the quantity
      must read as an integer of at least 1; otherwise nothing is
      generated. */
  method GenerateClick(rows: seq<StockRow>, cache: Cache, selected: Option<(int, string)>,
                       cantidadText: string, today: Day, expiry: Day, saved: bool)
    returns (labels: seq<string>, cache': Cache)
    ensures selected.None? || PositiveInt(cantidadText).None? ==> labels == [] && cache' == cache
    ensures selected.Some? && saved ==> |labels| == if PositiveInt(cantidadText).Some? then PositiveInt(cantidadText).value else 0
    ensures labels != [] ==> selected.Some? && saved && PositiveInt(cantidadText).Some?
  {
    labels := [];
    cache' := cache;
    if selected.None? {
      return;
    }
    match PositiveInt(cantidadText)
    case None =>
    case Some(cantidad) =>
      var start;
      labels, start, cache' := GenerateBatch(rows, cache, selected.value.0, selected.value.1,
                                      cantidad, today, expiry, saved);
  }
}

=== FILE: ledger.dfy ===
/** The stock ledger shared by escaner.py and salida.py: inbound ranges
    (table `stock_pp`), outbound rows (table `salidas`), the product catalog,
    and the SQL aggregates computed over them. Tables are sequences in
    insertion order; `SUM`/`COUNT` are recursive sums. */
module Ledger {
  import opened Text

  /** A row of `stock_pp`: an inbound movement covering the serials
      `serieInicio..serieFin` of one product and lot, whose last pallet holds
      `packsFin` loose packs when `packsFin > 0`. */
  datatype Range = Range(
    id: int,
    idProducto: int,
    lote: string,
    serieInicio: int,
    serieFin: int,
    packsFin: int)

  /** The `unit_type` column of `salidas`: 'pallet' or 'packs'. */
  datatype Unit = Pallet | Packs

  /** A row of `salidas`: one label taken out of stock. */
  datatype Salida = Salida(
    idProducto: int,
    lote: string,
    nroSerie: int,
    unit: Unit,
    packsQty: int,
    stockPpId: int,
    rawPayload: string)

  /** A pair of counters: pallets and packs. */
  datatype Stock = Stock(pallets: int, packs: int)

  function Plus(a: Stock, b: Stock): Stock {
    Stock(a.pallets + b.pallets, a.packs + b.packs)
  }

  function Minus(a: Stock, b: Stock): Stock {
    Stock(a.pallets - b.pallets, a.packs - b.packs)
  }

  const Zero := Stock(0, 0)

  lemma PlusAssoc(a: Stock, b: Stock, c: Stock)
    ensures Plus(a, Plus(b, c)) == Plus(Plus(a, b), c)
    ensures Plus(a, Plus(b, c)) == Plus(b, Plus(a, c))
  {
  }

  /** What one inbound range adds: every serial of the range is a pallet,
      except the last one when it is a partial pallet of `packsFin` packs. */
  function Contribution(r: Range): (s: Stock)
    ensures s.packs == r.packsFin
    ensures r.packsFin > 0 ==> s.pallets == r.serieFin - r.serieInicio
    ensures r.packsFin <= 0 ==> s.pallets == r.serieFin - r.serieInicio + 1
  {
    Stock((r.serieFin - r.serieInicio + 1) - (if r.packsFin > 0 then 1 else 0), r.packsFin)
  }

  predicate RangeFor(r: Range, idProducto: int, lote: string) {
    r.idProducto == idProducto && r.lote == lote
  }

  predicate SalidaFor(s: Salida, idProducto: int, lote: string) {
    s.idProducto == idProducto && s.lote == lote
  }

  /** `compute_totals_for_product_lote` / `compute_ingresos_totals`: the sum
      of the contributions of the ranges of one product and lot; (0, 0) when
      there are none. */
  function InboundTotals(ranges: seq<Range>, idProducto: int, lote: string): Stock
  {
    if ranges == [] then Zero
    else
      var rest := InboundTotals(ranges[1..], idProducto, lote);
      if RangeFor(ranges[0], idProducto, lote) then Plus(Contribution(ranges[0]), rest) else rest
  }

  /** What one outbound row removes: one pallet, or its `packsQty` packs. */
  function Removal(s: Salida): (st: Stock)
    ensures s.unit == Pallet ==> st == Stock(1, 0)
    ensures s.unit == Packs ==> st == Stock(0, s.packsQty)
  {
    match s.unit
    case Pallet => Stock(1, 0)
    case Packs => Stock(0, s.packsQty)
  }

  /** `compute_salidas_totals`: the number of 'pallet' rows and the sum of
      `packs_qty` over the 'packs' rows of one product and lot. */
  function OutboundTotals(salidas: seq<Salida>, idProducto: int, lote: string): Stock
  {
    if salidas == [] then Zero
    else
      var rest := OutboundTotals(salidas[1..], idProducto, lote);
      if SalidaFor(salidas[0], idProducto, lote) then Plus(Removal(salidas[0]), rest) else rest
  }

  /** `compute_net_stock`: inbound minus outbound, with no clamping at zero. */
  function NetStock(ranges: seq<Range>, salidas: seq<Salida>, idProducto: int, lote: string): (n: Stock)
    ensures Plus(n, OutboundTotals(salidas, idProducto, lote)) == InboundTotals(ranges, idProducto, lote)
  {
    var i := InboundTotals(ranges, idProducto, lote);
    var o := OutboundTotals(salidas, idProducto, lote);
    PlusMinus(i, o);
    Minus(i, o)
  }

  lemma PlusMinus(a: Stock, b: Stock)
    ensures Plus(Minus(a, b), b) == a
  {
  }

  /** Inserting a range adds exactly its own contribution to the totals of
      its product and lot, and nothing to any other product or lot. */
  lemma {:induction false} InboundAppend(ranges: seq<Range>, r: Range, idProducto: int, lote: string)
    ensures InboundTotals(ranges + [r], idProducto, lote) ==
      if RangeFor(r, idProducto, lote) then Plus(InboundTotals(ranges, idProducto, lote), Contribution(r))
      else InboundTotals(ranges, idProducto, lote)
  {
    if ranges != [] {
      assert (ranges + [r])[1..] == ranges[1..] + [r];
      InboundAppend(ranges[1..], r, idProducto, lote);
    } else {
      assert ([] + [r])[1..] == [];
    }
  }

  /** Inserting an outbound row removes exactly its own unit from the totals
      of its product and lot, and nothing from any other product or lot. */
  lemma {:induction false} OutboundAppend(salidas: seq<Salida>, s: Salida, idProducto: int, lote: string)
    ensures OutboundTotals(salidas + [s], idProducto, lote) ==
      if SalidaFor(s, idProducto, lote) then Plus(OutboundTotals(salidas, idProducto, lote), Removal(s))
      else OutboundTotals(salidas, idProducto, lote)
  {
    if salidas != [] {
      assert (salidas + [s])[1..] == salidas[1..] + [s];
      OutboundAppend(salidas[1..], s, idProducto, lote);
    } else {
      assert ([] + [s])[1..] == [];
    }
  }

  /** A range of serials 1..10 whose last pallet holds 7 packs is nine full
      pallets and seven packs. */
  lemma ContributionExample()
    ensures Contribution(Range(1, 42, "090226", 1, 10, 7)) == Stock(9, 7)
  {
  }

  /** The inbound totals of a ledger that has only ranges with
      `serieInicio <= serieFin` and `packsFin >= 0` are never negative. */
  lemma {:induction false} InboundNonNegative(ranges: seq<Range>, idProducto: int, lote: string)
    requires forall i :: 0 <= i < |ranges| ==> WellFormed(ranges[i])
    ensures InboundTotals(ranges, idProducto, lote).pallets >= 0
    ensures InboundTotals(ranges, idProducto, lote).packs >= 0
  {
    if ranges != [] {
      InboundNonNegative(ranges[1..], idProducto, lote);
    }
  }

  /** The shape every range committed by the scan station has: `serieInicio`
      is the smaller serial and `packsFin` is 0 or a positive count. */
  predicate WellFormed(r: Range) {
    r.serieInicio <= r.serieFin && r.packsFin >= 0
  }

  // ---------------------------------------------------------------------
  //   Catalog and published payloads
  // ---------------------------------------------------------------------

  /** A row of the products table. */
  datatype Product = Product(idProducto: int, descripcion: string)

  /** `id_producto` identifies a product: no two rows share it. */
  predicate DistinctIds(products: seq<Product>) {
    forall i, j :: 0 <= i < j < |products| ==> products[i].idProducto != products[j].idProducto
  }

  /** The description the totals queries return: the product's description
      stripped, or "" when the product is not in the table. */
  function Describe(products: seq<Product>, idProducto: int): (d: string)
    ensures IsTrimmed(d)
    ensures (forall i :: 0 <= i < |products| ==> products[i].idProducto != idProducto) ==> d == ""
  {
    if products == [] then ""
    else if products[0].idProducto == idProducto then Trim(products[0].descripcion)
    else Describe(products[1..], idProducto)
  }

  /** A listed product is described by its own row. */
  lemma {:induction false} DescribeListed(products: seq<Product>, i: int)
    requires DistinctIds(products) && 0 <= i < |products|
    ensures Describe(products, products[i].idProducto) == Trim(products[i].descripcion)
  {
    if i > 0 {
      DescribeListed(products[1..], i - 1);
    }
  }

  /** The `stock` object of the payload sent to the spreadsheet. */
  datatype StockUpdate = StockUpdate(
    idProducto: int,
    descripcion: string,
    lote: string,
    stockPallets: int,
    stockPacks: int)

  /** `build_payload_for_product_lote` (escaner.py): inbound totals only. */
  function InboundUpdate(products: seq<Product>, ranges: seq<Range>, idProducto: int, lote: string): (u: StockUpdate)
    ensures u.idProducto == idProducto && u.lote == lote
    ensures Stock(u.stockPallets, u.stockPacks) == InboundTotals(ranges, idProducto, lote)
  {
    var t := InboundTotals(ranges, idProducto, lote);
    StockUpdate(idProducto, Describe(products, idProducto), lote, t.pallets, t.packs)
  }

  /** `build_payload_for_product_lote_net` (salida.py): net totals. */
  function NetUpdate(products: seq<Product>, ranges: seq<Range>, salidas: seq<Salida>, idProducto: int, lote: string): (u: StockUpdate)
    ensures u.idProducto == idProducto && u.lote == lote
    ensures Stock(u.stockPallets, u.stockPacks) == NetStock(ranges, salidas, idProducto, lote)
  {
    var n := NetStock(ranges, salidas, idProducto, lote);
    StockUpdate(idProducto, Describe(products, idProducto), lote, n.pallets, n.packs)
  }

  /** The two programs publish different figures for the same product and
      lot: the scan station's figures exceed the outbound station's by
      exactly the outbound totals, so they agree only while nothing of that
      product and lot has gone out. */
  lemma PublishedFiguresDiffer(products: seq<Product>, ranges: seq<Range>, salidas: seq<Salida>, idProducto: int, lote: string)
    ensures var a := InboundUpdate(products, ranges, idProducto, lote);
      var b := NetUpdate(products, ranges, salidas, idProducto, lote);
      && a.descripcion == b.descripcion
      && Stock(a.stockPallets, a.stockPacks) == Plus(Stock(b.stockPallets, b.stockPacks), OutboundTotals(salidas, idProducto, lote))
      && (a == b <==> OutboundTotals(salidas, idProducto, lote) == Zero)
  {
  }

  // ---------------------------------------------------------------------
  //   Snapshot
  // ---------------------------------------------------------------------

  /** One row of `build_snapshot_rows`. */
  datatype SnapshotRow = SnapshotRow(idProducto: int, descripcion: string, pallets: int, packsAclarados: int)

  /** The totals of a product over all its lots (the snapshot's join is on
      the product only). */
  function ProductTotals(ranges: seq<Range>, idProducto: int): Stock
  {
    if ranges == [] then Zero
    else
      var rest := ProductTotals(ranges[1..], idProducto);
      if ranges[0].idProducto == idProducto then Plus(Contribution(ranges[0]), rest) else rest
  }

  /** The ranges that are not of the given product and lot. */
  function Without(ranges: seq<Range>, idProducto: int, lote: string): (out: seq<Range>)
    ensures forall i :: 0 <= i < |out| ==> !RangeFor(out[i], idProducto, lote)
  {
    if ranges == [] then []
    else
      var rest := Without(ranges[1..], idProducto, lote);
      if RangeFor(ranges[0], idProducto, lote) then rest else [ranges[0]] + rest
  }

  /** A product's snapshot total is the total of one of its lots plus the
      total of everything else of that product: the lots partition it. */
  lemma {:induction false} ProductTotalsSplit(ranges: seq<Range>, idProducto: int, lote: string)
    ensures ProductTotals(ranges, idProducto) ==
      Plus(InboundTotals(ranges, idProducto, lote), ProductTotals(Without(ranges, idProducto, lote), idProducto))
  {
    if ranges == [] {
      SplitEmpty(ranges, idProducto, lote);
    } else {
      ProductTotalsSplit(ranges[1..], idProducto, lote);
      SplitStep(ranges, idProducto, lote);
    }
  }

  lemma SplitEmpty(ranges: seq<Range>, idProducto: int, lote: string)
    requires ranges == []
    ensures ProductTotals(ranges, idProducto) ==
      Plus(InboundTotals(ranges, idProducto, lote), ProductTotals(Without(ranges, idProducto, lote), idProducto))
  {
  }

  lemma SplitStep(ranges: seq<Range>, idProducto: int, lote: string)
    requires ranges != []
    requires ProductTotals(ranges[1..], idProducto) ==
      Plus(InboundTotals(ranges[1..], idProducto, lote), ProductTotals(Without(ranges[1..], idProducto, lote), idProducto))
    ensures ProductTotals(ranges, idProducto) ==
      Plus(InboundTotals(ranges, idProducto, lote), ProductTotals(Without(ranges, idProducto, lote), idProducto))
  {
    if RangeFor(ranges[0], idProducto, lote) {
      SplitStepSameLot(ranges, idProducto, lote);
    } else {
      SplitStepOther(ranges, idProducto, lote);
    }
  }

  lemma SplitStepSameLot(ranges: seq<Range>, idProducto: int, lote: string)
    requires ranges != [] && RangeFor(ranges[0], idProducto, lote)
    requires ProductTotals(ranges[1..], idProducto) ==
      Plus(InboundTotals(ranges[1..], idProducto, lote), ProductTotals(Without(ranges[1..], idProducto, lote), idProducto))
    ensures ProductTotals(ranges, idProducto) ==
      Plus(InboundTotals(ranges, idProducto, lote), ProductTotals(Without(ranges, idProducto, lote), idProducto))
  {
    var tail := ranges[1..];
    var c := Contribution(ranges[0]);
    var it := InboundTotals(tail, idProducto, lote);
    var pw := ProductTotals(Without(tail, idProducto, lote), idProducto);
    assert Without(ranges, idProducto, lote) == Without(tail, idProducto, lote);
    assert ProductTotals(ranges, idProducto) == Plus(c, ProductTotals(tail, idProducto));
    assert InboundTotals(ranges, idProducto, lote) == Plus(c, it);
    PlusAssoc(c, it, pw);
  }

  lemma SplitStepOther(ranges: seq<Range>, idProducto: int, lote: string)
    requires ranges != [] && !RangeFor(ranges[0], idProducto, lote)
    requires ProductTotals(ranges[1..], idProducto) ==
      Plus(InboundTotals(ranges[1..], idProducto, lote), ProductTotals(Without(ranges[1..], idProducto, lote), idProducto))
    ensures ProductTotals(ranges, idProducto) ==
      Plus(InboundTotals(ranges, idProducto, lote), ProductTotals(Without(ranges, idProducto, lote), idProducto))
  {
    var r := ranges[0];
    var tail := ranges[1..];
    var c := Contribution(r);
    var it := InboundTotals(tail, idProducto, lote);
    var pw := ProductTotals(Without(tail, idProducto, lote), idProducto);
    var w := [r] + Without(tail, idProducto, lote);
    assert Without(ranges, idProducto, lote) == w;
    assert w[0] == r && w[1..] == Without(tail, idProducto, lote);
    assert InboundTotals(ranges, idProducto, lote) == it;
    if r.idProducto == idProducto {
      assert ProductTotals(w, idProducto) == Plus(c, pw);
      PlusAssoc(c, it, pw);
      PlusAssoc(it, c, pw);
    }
  }

  /** When every range of a product is of the same lot, the snapshot total
      is that lot's total. */
  lemma SingleLotProductTotals(ranges: seq<Range>, idProducto: int, lote: string)
    requires forall i :: 0 <= i < |ranges| && ranges[i].idProducto == idProducto ==> ranges[i].lote == lote
    ensures ProductTotals(ranges, idProducto) == InboundTotals(ranges, idProducto, lote)
  {
    ProductTotalsSplit(ranges, idProducto, lote);
    NoOtherLot(ranges, idProducto, lote);
  }

  lemma {:induction false} NoOtherLot(ranges: seq<Range>, idProducto: int, lote: string)
    requires forall i :: 0 <= i < |ranges| && ranges[i].idProducto == idProducto ==> ranges[i].lote == lote
    ensures ProductTotals(Without(ranges, idProducto, lote), idProducto) == Zero
  {
    if ranges != [] {
      NoOtherLot(ranges[1..], idProducto, lote);
      var rest := Without(ranges[1..], idProducto, lote);
      if !RangeFor(ranges[0], idProducto, lote) {
        assert ([ranges[0]] + rest)[1..] == rest;
      }
    }
  }

  /** The snapshot row of one product. */
  function RowOf(p: Product, ranges: seq<Range>): (row: SnapshotRow)
    ensures row.idProducto == p.idProducto && row.descripcion == p.descripcion
    ensures Stock(row.pallets, row.packsAclarados) == ProductTotals(ranges, p.idProducto)
  {
    var t := ProductTotals(ranges, p.idProducto);
    SnapshotRow(p.idProducto, p.descripcion, t.pallets, t.packs)
  }

  function RowsOf(products: seq<Product>, ranges: seq<Range>): (rows: seq<SnapshotRow>)
    ensures |rows| == |products|
    ensures forall i :: 0 <= i < |rows| ==> rows[i] == RowOf(products[i], ranges)
  {
    if products == [] then []
    else [RowOf(products[0], ranges)] + RowsOf(products[1..], ranges)
  }

  predicate Ascending(rows: seq<SnapshotRow>) {
    forall i, j :: 0 <= i < j < |rows| ==> rows[i].idProducto < rows[j].idProducto
  }

  /** Inserts a row into a list in ascending id order. */
  function InsertById(row: SnapshotRow, sorted: seq<SnapshotRow>): (out: seq<SnapshotRow>)
    requires Ascending(sorted)
    requires forall i :: 0 <= i < |sorted| ==> sorted[i].idProducto != row.idProducto
    ensures Ascending(out) && |out| == |sorted| + 1
    ensures forall x :: x in out <==> x == row || x in sorted
  {
    if sorted == [] || row.idProducto < sorted[0].idProducto then [row] + sorted
    else
      var rest := InsertById(row, sorted[1..]);
      assert forall x :: x in sorted <==> x == sorted[0] || x in sorted[1..];
      forall k | 0 <= k < |rest|
        ensures sorted[0].idProducto < rest[k].idProducto
      {
        assert rest[k] in rest;
        if rest[k] != row {
          var m :| 0 <= m < |sorted[1..]| && sorted[1..][m] == rest[k];
          assert sorted[m + 1] == rest[k];
        }
      }
      [sorted[0]] + rest
  }

  /** `ORDER BY id_producto ASC` over rows with distinct ids. */
  function SortById(rows: seq<SnapshotRow>): (out: seq<SnapshotRow>)
    requires forall i, j :: 0 <= i < j < |rows| ==> rows[i].idProducto != rows[j].idProducto
    ensures Ascending(out) && |out| == |rows|
    ensures forall x :: x in out <==> x in rows
  {
    if rows == [] then []
    else
      var rest := SortById(rows[1..]);
      assert forall x :: x in rows <==> x == rows[0] || x in rows[1..];
      forall k | 0 <= k < |rest|
        ensures rest[k].idProducto != rows[0].idProducto
      {
        assert rest[k] in rows[1..];
        var m :| 0 <= m < |rows[1..]| && rows[1..][m] == rest[k];
        assert rows[m + 1] == rest[k];
      }
      InsertById(rows[0], rest)
  }

  /** `build_snapshot_rows`: one row per product, in ascending product id,
      with the product's totals over all its lots (zero for a product without
      ranges) and its description as stored. */
  function Snapshot(products: seq<Product>, ranges: seq<Range>): (rows: seq<SnapshotRow>)
    requires DistinctIds(products)
    ensures |rows| == |products| && Ascending(rows)
    ensures forall i :: 0 <= i < |products| ==> RowOf(products[i], ranges) in rows
    ensures forall row :: row in rows ==> exists i :: 0 <= i < |products| && row == RowOf(products[i], ranges)
  {
    var all := RowsOf(products, ranges);
    SortById(all)
  }

  // ---------------------------------------------------------------------
  //   Chunks
  // ---------------------------------------------------------------------

  /** `chunks(lst, n)`: consecutive slices of `n` elements, the last one
      possibly shorter. A step of 0 makes Python's `range` raise, so `n`
      must be positive. */
  function Chunks<T>(s: seq<T>, n: nat): (r: seq<seq<T>>)
    requires n > 0
    ensures forall i :: 0 <= i < |r| ==> 0 < |r[i]| <= n
    ensures forall i :: 0 <= i < |r| - 1 ==> |r[i]| == n
    decreases |s|
  {
    if |s| <= n then (if s == [] then [] else [s])
    else [s[..n]] + Chunks(s[n..], n)
  }

  function Flatten<T>(r: seq<seq<T>>): seq<T> {
    if r == [] then [] else r[0] + Flatten(r[1..])
  }

  /** Concatenating the chunks gives back the list: no row is lost,
      duplicated or reordered. */
  lemma {:induction false} ChunksFlatten<T>(s: seq<T>, n: nat)
    requires n > 0
    ensures Flatten(Chunks(s, n)) == s
    decreases |s|
  {
    if |s| > n {
      ChunksFlatten(s[n..], n);
      var r := Chunks(s, n);
      assert r[1..] == Chunks(s[n..], n);
      assert s == s[..n] + s[n..];
    } else if s != [] {
      assert [s][1..] == [];
    }
  }
}

=== FILE: normalize.dfy ===
/** The two normalisers of escaner.py / salida.py: `normalize_id_value`
    (spreadsheet-style "42.0" product codes become "42") and
    `normalize_date_iso` (dd/mm/yy becomes a full-date of section 5.6 of
    RFC 3339, YYYY-MM-DD). Neither raises. */
module Normalize {
  import opened Results
  import opened Text

  /** True when `t.lower() == "nan"`. */
  predicate IsNanWord(t: string) {
    |t| == 3 && (t[0] == 'n' || t[0] == 'N') && (t[1] == 'a' || t[1] == 'A')
    && (t[2] == 'n' || t[2] == 'N')
  }

  predicate AllZeros(s: string) {
    forall i :: 0 <= i < |s| ==> s[i] == '0'
  }

  /** The integer `int(float(t))` when `t` is a plain decimal literal
      (optional sign, digits, optional `.` and digits, at least one digit)
      whose fraction is all zeros, i.e. when `float(t).is_integer()`;
      `None` when `float(t)` fails or is not integral. */
  function IntegralDecimal(t: string): (r: Option<int>)
  {
    var signed := |t| >= 1 && (t[0] == '-' || t[0] == '+');
    var body := if signed then t[1..] else t;
    if '.' in body then
      var k := IndexOf(body, '.');
      var whole := body[..k];
      var frac := body[k + 1..];
      if AllDigits(whole) && AllZeros(frac) && (|whole| > 0 || |frac| > 0) then
        Some(ApplySign(signed && t[0] == '-', DigitsValue(whole)))
      else None
    else if |body| > 0 && AllDigits(body) then
      Some(ApplySign(signed && t[0] == '-', DigitsValue(body)))
    else None
  }

  /** Python's `normalize_id_value(s)` for a string argument. */
  function NormalizeId(s: string): (r: string)
    ensures IsTrimmed(r)
  {
    var t := Trim(s);
    if t == "" || IsNanWord(t) then ""
    else match IntegralDecimal(t)
      case Some(v) => IntToString(v)
      case None => t
  }

  /** Every integer literal accepted by `int()` is also an integral decimal
      with the same value. */
  lemma LiteralIsIntegralDecimal(t: string)
    requires ParseIntLiteral(t).Some?
    ensures IntegralDecimal(t) == ParseIntLiteral(t)
  {
    if t[0] == '-' || t[0] == '+' {
      DigitsExclude(t[1..], '.');
    } else {
      DigitsExclude(t, '.');
    }
  }

  /** Rendering an integer and reading it as a decimal gives the integer
      back. */
  lemma IntToStringIsIntegralDecimal(n: int)
    ensures IntegralDecimal(IntToString(n)) == Some(n)
  {
    IntToStringRoundTrip(n);
    TrimTrimmed(IntToString(n));
    LiteralIsIntegralDecimal(IntToString(n));
  }

  /** The product id that `int(normalize_id_value(s))` yields (a failure of
      `int()` is `None`) is exactly the value of `s` read as an integral
      decimal: "42.0", "42" and " +42 " all give 42; "42.5", "abc", "nan"
      and "" give none. */
  lemma ProductIdOfNormalizeId(s: string)
    ensures ParseInt(NormalizeId(s)) == IntegralDecimal(Trim(s))
  {
    var t := Trim(s);
    if t == "" || IsNanWord(t) {
      assert IntegralDecimal(t).None? by {
        if t != "" {
          assert !IsDigit(t[0]) && !IsDigit(t[1]) && t[0] != '-' && t[0] != '+';
        }
      }
    } else {
      match IntegralDecimal(t)
      case Some(v) =>
        IntToStringRoundTrip(v);
      case None =>
        TrimTrimmed(t);
        if ParseIntLiteral(t).Some? {
          LiteralIsIntegralDecimal(t);
        }
    }
  }

  /** Normalising twice is the same as normalising once. */
  lemma NormalizeIdIdempotent(s: string)
    ensures NormalizeId(NormalizeId(s)) == NormalizeId(s)
  {
    var r := NormalizeId(s);
    TrimTrimmed(r);
    var t := Trim(s);
    if t != "" && !IsNanWord(t) {
      match IntegralDecimal(t)
      case Some(v) =>
        IntToStringIsIntegralDecimal(v);
        assert !IsNanWord(r) by {
          if |r| == 3 {
            assert IsDigit(r[1]);
          }
        }
      case None =>
    }
  }

  /** The spreadsheet artifact the normaliser exists for. */
  lemma NormalizeIdExample()
    ensures NormalizeId("42.0") == "42"
  {
    var t := "42.0";
    assert IsTrimmed(t) by {
      DigitNotSpace(t[0]);
      DigitNotSpace(t[3]);
    }
    TrimTrimmed(t);
    FortyTwoPointZero();
    FortyTwo();
    NormalizeIdOfIntegral(t, 42);
  }

  lemma FortyTwoPointZero()
    ensures IntegralDecimal("42.0") == Some(42)
  {
    var t := "42.0";
    assert t == "42" + ['.'] + "0";
    IndexOfAfterPrefix("42", '.', "0");
    assert t[..2] == "42" && t[3..] == "0";
    TwoDigitsValue("42");
  }

  lemma FortyTwo()
    ensures IntToString(42) == "42"
  {
    assert NatToString(4) == "4";
  }

  /** Every spelling of an integral decimal ("42.0", "+42", "042", " 42 ")
      is rewritten to the integer as Python prints it. */
  lemma NormalizeIdOfIntegral(s: string, v: int)
    requires IntegralDecimal(Trim(s)) == Some(v)
    ensures NormalizeId(s) == IntToString(v)
  {
    var t := Trim(s);
    if IsNanWord(t) {
      NanNotIntegral(t);
    }
  }

  /** "nan" in any case is not a decimal. */
  lemma NanNotIntegral(t: string)
    requires IsNanWord(t)
    ensures IntegralDecimal(t).None?
  {
    assert !IsDigit(t[0]) && !IsDigit(t[1]) && t[0] != '-' && t[0] != '+';
  }

  // ---------------------------------------------------------------------
  //   Dates
  // ---------------------------------------------------------------------

  /** A proleptic Gregorian calendar date, as Python's `datetime.date`. */
  datatype Date = Date(year: int, month: int, day: int)

  predicate IsLeapYear(y: int) {
    y % 4 == 0 && (y % 100 != 0 || y % 400 == 0)
  }

  function DaysInMonth(y: int, m: int): (n: int)
    requires 1 <= m <= 12
    ensures 28 <= n <= 31
  {
    if m == 2 then (if IsLeapYear(y) then 29 else 28)
    else if m == 4 || m == 6 || m == 9 || m == 11 then 30
    else 31
  }

  /** The dates `datetime.date(year, month, day)` accepts (years 1..9999). */
  predicate ValidDate(d: Date) {
    1 <= d.year <= 9999 && 1 <= d.month <= 12 && 1 <= d.day <= DaysInMonth(d.year, d.month)
  }

  /** A date that exists: what a `datetime.date` value can hold. */
  type Day = d: Date | ValidDate(d) witness Date(2000, 1, 1)

  /** `%y` of `strptime`: 00..68 are 2000..2068, 69..99 are 1969..1999. */
  function PivotYear(yy: nat): (y: int)
    requires yy < 100
    ensures 1969 <= y <= 2068
  {
    if yy <= 68 then 2000 + yy else 1900 + yy
  }

  /** `datetime.strptime(t, "%d/%m/%y").date()`: the day is one or two
      digits worth 1..31, the month one or two digits worth 1..12, the year
      exactly two digits, nothing may follow, and the resulting calendar
      date must exist; otherwise `ValueError` (here `None`). */
  function ParseDayMonthYear(t: string): (r: Option<Date>)
    ensures r.Some? ==> ValidDate(r.value) && 1969 <= r.value.year <= 2068
  {
    var parts := Split(t, '/');
    if |parts| != 3 then None
    else
      var dd := parts[0];
      var mm := parts[1];
      var yy := parts[2];
      if 1 <= |dd| <= 2 && AllDigits(dd) && 1 <= |mm| <= 2 && AllDigits(mm)
         && |yy| == 2 && AllDigits(yy)
      then
        TwoDigitsValue(yy);
        var d := Date(PivotYear(DigitsValue(yy)), DigitsValue(mm), DigitsValue(dd));
        if ValidDate(d) then Some(d) else None
      else None
  }

  function Pad2(n: nat): string {
    PadZeros(NatToString(n), 2)
  }

  /** `date.isoformat()`: YYYY-MM-DD with zero padding, the year in the
      first four digits, the month in the two after the first dash and the
      day in the last two. */
  function FormatIso(d: Day): (s: string)
    ensures |s| == 10 && '/' !in s && '|' !in s && '=' !in s
    ensures IsDigit(s[0]) && IsDigit(s[9])
    ensures s[4] == '-' && s[7] == '-'
    ensures AllDigits(s[..4]) && DigitsValue(s[..4]) == d.year
    ensures AllDigits(s[5..7]) && DigitsValue(s[5..7]) == d.month
    ensures AllDigits(s[8..]) && DigitsValue(s[8..]) == d.day
  {
    var y := PadZeros(NatToString(d.year), 4);
    var m := Pad2(d.month);
    var dd := Pad2(d.day);
    PadZerosValue(d.year, 4);
    Pad2Value(d.month);
    Pad2Value(d.day);
    DashedExcludes(y, m, dd, '/');
    DashedExcludes(y, m, dd, '|');
    DashedExcludes(y, m, dd, '=');
    DashedParts(y, m, dd);
    y + "-" + m + "-" + dd
  }

  /** The pieces of a four-two-two dashed text sit at fixed positions. */
  lemma DashedParts(y: string, m: string, dd: string)
    requires |y| == 4 && |m| == 2 && |dd| == 2
    ensures var s := y + "-" + m + "-" + dd;
      |s| == 10 && s[..4] == y && s[4] == '-' && s[5..7] == m && s[7] == '-' && s[8..] == dd
      && s[0] == y[0] && s[9] == dd[1]
  {
  }

  /** Digit runs joined by dashes hold no character other than digits and
      dashes. */
  lemma DashedExcludes(y: string, m: string, dd: string, c: char)
    requires AllDigits(y) && AllDigits(m) && AllDigits(dd) && !IsDigit(c) && c != '-'
    ensures c !in y + "-" + m + "-" + dd
  {
    DigitsExclude(y, c);
    DigitsExclude(m, c);
    DigitsExclude(dd, c);
  }

  /** `strftime("%d/%m/%y")`: how the generator prints dates on labels. */
  function FormatDayMonthYear(d: Day): string
  {
    Join([Pad2(d.day), Pad2(d.month), Pad2(d.year % 100)], '/')
  }

  predicate HasSlash(t: string) {
    '/' in t
  }

  /** Python's `normalize_date_iso(s)`: text without a slash passes through
      stripped, and a slashed date it cannot read is kept as it was. It
      never raises and blank text stays blank. */
  function NormalizeDate(s: string): (r: string)
    ensures IsTrimmed(r)
    ensures r == [] <==> Trim(s) == []
    ensures !HasSlash(Trim(s)) ==> r == Trim(s)
  {
    if s == "" then "" else NormalizeStripped(Trim(s))
  }

  /** `normalize_date_iso` once the text is stripped. */
  function NormalizeStripped(t: string): (r: string)
    requires IsTrimmed(t)
    ensures IsTrimmed(r)
    ensures r == [] <==> t == []
    ensures !HasSlash(t) ==> r == t
  {
    if !HasSlash(t) then t
    else match ParseDayMonthYear(t)
      case Some(d) =>
        var iso := FormatIso(d);
        DigitNotSpace(iso[0]);
        DigitNotSpace(iso[9]);
        iso
      case None => t
  }

  /** A zero-padded two-digit rendering reads back as its value. */
  lemma Pad2Value(n: nat)
    requires n < 100
    ensures |Pad2(n)| == 2 && AllDigits(Pad2(n)) && DigitsValue(Pad2(n)) == n
  {
    PadZerosValue(n, 2);
  }

  lemma FormatDayMonthYearShape(d: Day)
    ensures FormatDayMonthYear(d) == Pad2(d.day) + "/" + Pad2(d.month) + "/" + Pad2(d.year % 100)
  {
    Join3(Pad2(d.day), Pad2(d.month), Pad2(d.year % 100), '/');
  }

  /** `strptime` reads back every date `strftime` printed, provided its
      year lies in the pivot window 1969..2068. */
  lemma ParseDayMonthYearRoundTrip(d: Day)
    requires 1969 <= d.year <= 2068
    ensures ParseDayMonthYear(FormatDayMonthYear(d)) == Some(d)
  {
    var parts := [Pad2(d.day), Pad2(d.month), Pad2(d.year % 100)];
    Pad2Value(d.day);
    Pad2Value(d.month);
    Pad2Value(d.year % 100);
    assert forall i :: 0 <= i < 3 ==> '/' !in parts[i] by {
      forall i | 0 <= i < 3
        ensures '/' !in parts[i]
      {
        DigitsExclude(parts[i], '/');
      }
    }
    SplitJoin(parts, '/');
    assert Split(FormatDayMonthYear(d), '/') == parts;
    PivotYearInverse(d.year);
  }

  lemma PivotYearInverse(y: int)
    requires 1969 <= y <= 2068
    ensures 0 <= y % 100 < 100 && PivotYear(y % 100) == y
  {
    if y >= 2000 {
      assert y % 100 == y - 2000;
    } else {
      assert y % 100 == y - 1900;
    }
  }

  /** Every date the generator can print as dd/mm/yy (years 1969..2068)
      normalises to its ISO form. */
  lemma NormalizeDateRoundTrip(d: Day)
    requires 1969 <= d.year <= 2068
    ensures NormalizeDate(FormatDayMonthYear(d)) == FormatIso(d)
  {
    var s := FormatDayMonthYear(d);
    FormatDayMonthYearShape(d);
    Pad2Value(d.day);
    Pad2Value(d.year % 100);
    assert s[2] == '/';
    DigitNotSpace(s[0]);
    DigitNotSpace(s[|s| - 1]);
    ParseDayMonthYearRoundTrip(d);
    NormalizeSlashed(s, d);
  }

  /** Stripped text holding a slash and read as a date becomes that date in
      ISO form. */
  lemma NormalizeSlashed(t: string, d: Day)
    requires IsTrimmed(t) && HasSlash(t) && ParseDayMonthYear(t) == Some(d)
    ensures NormalizeDate(t) == FormatIso(d)
  {
    TrimTrimmed(t);
    StrippedSlashed(t, d);
    assert t != "";
  }

  lemma StrippedSlashed(t: string, d: Day)
    requires IsTrimmed(t) && HasSlash(t) && ParseDayMonthYear(t) == Some(d)
    ensures NormalizeStripped(t) == FormatIso(d)
  {
  }

  /** Whether a date is rewritten depends only on whether `strptime` can
      read the stripped text: a readable dd/mm/yy date becomes its ISO form,
      and anything else, slashed or not, comes back stripped, the parse
      error being swallowed. */
  lemma NormalizeDateByReadability(s: string)
    ensures ParseDayMonthYear(Trim(s)).None? ==> NormalizeDate(s) == Trim(s)
    ensures ParseDayMonthYear(Trim(s)).Some? ==>
      NormalizeDate(s) == FormatIso(ParseDayMonthYear(Trim(s)).value)
  {
    var t := Trim(s);
    if !HasSlash(t) {
      assert Split(t, '/') == [t];
      assert ParseDayMonthYear(t).None?;
    } else {
      assert s != "";
    }
  }

  /** An ISO date is already normal: it has no `/`. */
  lemma NormalizeDateIso(d: Day)
    ensures NormalizeDate(FormatIso(d)) == FormatIso(d)
  {
    var s := FormatIso(d);
    DigitNotSpace(s[0]);
    DigitNotSpace(s[9]);
    TrimTrimmed(s);
  }

  /** Normalising twice is the same as normalising once. */
  lemma NormalizeDateIdempotent(s: string)
    ensures NormalizeDate(NormalizeDate(s)) == NormalizeDate(s)
  {
    var r := NormalizeDate(s);
    TrimTrimmed(r);
    if r != "" && HasSlash(r) {
      assert r == NormalizeStripped(Trim(s));
      assert ParseDayMonthYear(r).None?;
    }
  }
}

=== FILE: outbox.dfy ===
/** The spreadsheet outbox of escaner.py and salida.py (`queue_outbox`,
    `pop_outbox_batch`, `delete_outbox_id`, `flush_outbox`): a table of
    pending payloads drained in ascending id order. The web endpoint behind
    `send_to_sheets` is an oracle that answers each payload. */
module Outbox {

  /** A row of the outbox table; `id` is its BIGSERIAL key. */
  datatype Message<P> = Message(id: int, payload: P)

  /** What `send_to_sheets` does with one payload, as `flush_outbox` sees
      it. The oracle is a function of the payload: the payload's
      `timestamp` field is not modelled, so two queued updates with the
      same figures get the same reply within one flush. No property below
      depends on this. `Ok` is a response dictionary whose "ok" is exactly `True`;
      `NotOk` is any other response, including a body that is not JSON
      (the function then returns {"ok": False}); `Raise` is an exception
      (an HTTP error status, a missing endpoint, a network failure). */
  datatype Reply = Ok | NotOk | Raise

  /** `pop_outbox_batch(conn, limit=50)`. */
  const BatchLimit: nat := 50

  /** The table in id order, and the next value of its id sequence. */
  datatype Queue<P> = Queue(messages: seq<Message<P>>, nextId: int)

  /** Ids increase along the queue and are all below the next id. */
  predicate Valid<P>(q: Queue<P>) {
    && (forall i, j :: 0 <= i < j < |q.messages| ==> q.messages[i].id < q.messages[j].id)
    && (forall i :: 0 <= i < |q.messages| ==> q.messages[i].id < q.nextId)
  }

  /** `a` is what is left of `b` after deleting some of its first rows. */
  predicate IsSuffix<T(==)>(a: seq<T>, b: seq<T>) {
    |a| <= |b| && a == b[|b| - |a|..]
  }

  /** `queue_outbox`: the new row gets the next id and goes last. */
  function Enqueue<P>(q: Queue<P>, payload: P): (r: Queue<P>)
    ensures |r.messages| == |q.messages| + 1 && r.messages[..|q.messages|] == q.messages
    ensures r.messages[|q.messages|] == Message(q.nextId, payload)
    ensures Valid(q) ==> Valid(r)
  {
    Queue(q.messages + [Message(q.nextId, payload)], q.nextId + 1)
  }

  /** The first `BatchLimit` rows in id order. */
  function Batch<P>(q: Queue<P>): (b: seq<Message<P>>)
    ensures |b| <= BatchLimit && |b| <= |q.messages|
    ensures |b| == BatchLimit || |b| == |q.messages|
    ensures b == q.messages[..|b|]
  {
    if |q.messages| <= BatchLimit then q.messages else q.messages[..BatchLimit]
  }

  /** How many leading rows of a batch the endpoint acknowledges: the
      reference count that `flush_outbox` returns. */
  function Acknowledged<P>(batch: seq<Message<P>>, send: P -> Reply): (n: nat)
    ensures n <= |batch|
    ensures forall i :: 0 <= i < n ==> send(batch[i].payload) == Ok
    ensures n < |batch| ==> send(batch[n].payload) != Ok
  {
    if batch == [] || send(batch[0].payload) != Ok then 0
    else 1 + Acknowledged(batch[1..], send)
  }

  /** A run of `n` acknowledged rows that is stopped by the end of the batch
      or by a row not acknowledged is the acknowledged prefix. */
  lemma {:induction false} AcknowledgedUnique<P>(batch: seq<Message<P>>, send: P -> Reply, n: nat)
    requires n <= |batch|
    requires forall i :: 0 <= i < n ==> send(batch[i].payload) == Ok
    requires n < |batch| ==> send(batch[n].payload) != Ok
    ensures Acknowledged(batch, send) == n
  {
    if n > 0 {
      AcknowledgedUnique(batch[1..], send, n - 1);
    }
  }

  /** `flush_outbox`: sends the batch in order, deleting each row whose
      reply is `Ok`, and stops at the first other reply. `sent` is the count
      it returns; `raised` says the call ended with the exception of
      `send_to_sheets` instead, after the deletions already made. */
  method Flush<P(==)>(q: Queue<P>, send: P -> Reply) returns (r: Queue<P>, sent: nat, raised: bool)
    ensures sent == Acknowledged(Batch(q), send) && sent <= BatchLimit
    ensures r == Queue(q.messages[sent..], q.nextId)
    ensures IsSuffix(r.messages, q.messages)
    ensures raised <==> sent < |Batch(q)| && send(q.messages[sent].payload) == Raise
    ensures Valid(q) ==> Valid(r)
  {
    var batch := Batch(q);
    sent := 0;
    raised := false;
    var remaining := q.messages;
    var stopped := false;
    while sent < |batch| && !stopped
      invariant sent <= |batch|
      invariant remaining == q.messages[sent..]
      invariant forall i :: 0 <= i < sent ==> send(batch[i].payload) == Ok
      invariant stopped ==> sent < |batch| && send(batch[sent].payload) != Ok
      invariant raised <==> stopped && send(batch[sent].payload) == Raise
      decreases |batch| - sent, !stopped
    {
      var reply := send(batch[sent].payload);
      if reply == Ok {
        remaining := remaining[1..];
        sent := sent + 1;
      } else {
        stopped := true;
        raised := reply == Raise;
      }
    }
    AcknowledgedUnique(batch, send, sent);
    r := Queue(remaining, q.nextId);
  }

  /** What one publish leaves: the update is queued under the next id, the
      first `sent` rows of that queue, the acknowledged ones, are deleted,
      and every other row, delivered or not, is still there. */
  predicate Delivered<P(==)>(q: Queue<P>, payload: P, send: P -> Reply, r: Queue<P>, sent: nat) {
    var queued := q.messages + [Message(q.nextId, payload)];
    && sent == Acknowledged(Batch(Enqueue(q, payload)), send)
    && sent <= |queued|
    && r == Queue(queued[sent..], q.nextId + 1)
  }

  /** The publishing step after a stock change in either program: queue the
      update, then flush; a failure of the flush is reported and swallowed.
      The new update is delivered only if everything queued before it was,
      and otherwise stays queued for a later flush. */
  method Publish<P(==)>(q: Queue<P>, payload: P, send: P -> Reply) returns (r: Queue<P>, sent: nat)
    ensures Delivered(q, payload, send, r, sent)
    ensures var m := Message(q.nextId, payload);
      && IsSuffix(r.messages, q.messages + [m])
      && (m in r.messages <==> sent <= |q.messages|)
    ensures |q.messages| >= BatchLimit ==> Message(q.nextId, payload) in r.messages
    ensures r.nextId == q.nextId + 1
    ensures Valid(q) ==> Valid(r)
  {
    var queued := Enqueue(q, payload);
    var raised;
    r, sent, raised := Flush(queued, send);
    var m := Message(q.nextId, payload);
    assert queued.messages == q.messages + [m];
    if sent <= |q.messages| {
      assert r.messages[|q.messages| - sent] == m;
    } else {
      assert r.messages == [];
    }
  }
}

=== FILE: qr_payload.dfy ===
/** `parse_qr_payload` of escaner.py (an identical copy lives in salida.py):
    the reader of the `KEY=value|KEY=value|...` line printed on every pallet
    label. */
module QrPayload {
  import opened Results
  import opened Text
  import opened Normalize

  /** The dictionary `parse_qr_payload` returns. */
  datatype ScanRecord = ScanRecord(
    descripcion: string,
    nroSerie: int,
    idProducto: int,
    lote: string,
    creacion: string,
    vencimiento: string)

  /** The three ways the parser raises `ValueError`: the line is not in
      `KEY=value|...` form, required fields are absent or empty (named in
      the message), or `int()` rejects the NS or the normalised PRD value. */
  datatype ParseError =
    | UnrecognizedFormat
    | MissingFields(keys: seq<string>)
    | NotAnInteger(key: string)

  /** The required keys, in the order the error message lists them. */
  const Required: seq<string> := ["NS", "PRD", "DSC", "LOT", "FEC", "VTO"]

  /** `k, v = p.split("=", 1)` followed by `k.strip()` and `v.strip()`. */
  function KeyOf(p: string): (k: string)
    requires '=' in p
    ensures IsTrimmed(k) && '=' !in k
  {
    var i := IndexOf(p, '=');
    TrimKeeps(p[..i], '=');
    Trim(p[..i])
  }

  function ValueOf(p: string): (v: string)
    requires '=' in p
    ensures IsTrimmed(v)
  {
    Trim(p[IndexOf(p, '=') + 1..])
  }

  /** A segment is cut at its first `=`, wherever that is: the key is the
      stripped text before it and the value the stripped text after it,
      which may hold further `=`. */
  lemma SplitAtFirstEquals(p: string, i: int)
    requires 0 <= i < |p| && p[i] == '=' && '=' !in p[..i]
    ensures KeyOf(p) == Trim(p[..i]) && ValueOf(p) == Trim(p[i + 1..])
  {
    var j := IndexOf(p, '=');
    assert j == i by {
      assert p[..i + 1][i] == '=';
      assert p[..j + 1][j] == '=';
    }
  }

  /** Segment `p` assigns key `k`. */
  predicate Assigns(p: string, k: string) {
    '=' in p && KeyOf(p) == k
  }

  /** The dictionary the loop over the segments builds: segments without `=`
      are skipped and a later assignment of a key replaces an earlier one. */
  function Fields(parts: seq<string>): map<string, string>
  {
    if parts == [] then map[] else Assign(Fields(parts[..|parts| - 1]), parts[|parts| - 1])
  }

  /** One turn of that loop: a segment with `=` sets its key, any other
      segment is skipped. */
  function Assign(data: map<string, string>, p: string): map<string, string>
  {
    if '=' in p then data[KeyOf(p) := ValueOf(p)] else data
  }

  /** Every key and every value of the dictionary is stripped. */
  lemma {:induction false} FieldsTrimmed(parts: seq<string>, k: string)
    ensures k in Fields(parts) ==> IsTrimmed(k) && IsTrimmed(Fields(parts)[k])
  {
    if parts != [] {
      FieldsTrimmed(parts[..|parts| - 1], k);
    }
  }

  /** A key is in the dictionary exactly when some segment assigns it. */
  lemma {:induction false} FieldsDomain(parts: seq<string>, k: string)
    ensures k in Fields(parts) <==> exists i :: 0 <= i < |parts| && Assigns(parts[i], k)
  {
    if parts != [] {
      var init, last := parts[..|parts| - 1], parts[|parts| - 1];
      FieldsDomain(init, k);
      AssignDomain(Fields(init), last, k);
      SomeAssignsSnoc(parts, init, k);
      assert Fields(parts) == Assign(Fields(init), last);
    }
  }

  /** Some segment assigns `k` when an earlier one or the last one does. */
  lemma SomeAssignsSnoc(parts: seq<string>, init: seq<string>, k: string)
    requires parts != [] && init == parts[..|parts| - 1]
    ensures (exists i :: 0 <= i < |parts| && Assigns(parts[i], k)) <==>
      (exists i :: 0 <= i < |init| && Assigns(init[i], k)) || Assigns(parts[|parts| - 1], k)
  {
    if exists i :: 0 <= i < |parts| && Assigns(parts[i], k) {
      var i :| 0 <= i < |parts| && Assigns(parts[i], k);
      if i < |init| {
        assert init[i] == parts[i];
      }
    }
    if exists i :: 0 <= i < |init| && Assigns(init[i], k) {
      var i :| 0 <= i < |init| && Assigns(init[i], k);
      assert parts[i] == init[i];
    }
  }

  /** One turn of the loop adds the key of its segment, if any. */
  lemma AssignDomain(data: map<string, string>, p: string, k: string)
    ensures k in Assign(data, p) <==> k in data || Assigns(p, k)
  {
  }

  /** The value of a key is the one its last assigning segment gives. */
  lemma {:induction false} FieldsLastWins(parts: seq<string>, k: string, i: int)
    requires 0 <= i < |parts| && Assigns(parts[i], k)
    requires forall j :: i < j < |parts| ==> !Assigns(parts[j], k)
    ensures k in Fields(parts) && Fields(parts)[k] == ValueOf(parts[i])
  {
    var init := parts[..|parts| - 1];
    if i < |parts| - 1 {
      assert forall j :: i < j < |init| ==> init[j] == parts[j];
      FieldsLastWins(init, k, i);
    }
  }

  /** The keys of `keys`, in their order, that are absent from `data` or map
      to the empty string. */
  function Missing(data: map<string, string>, keys: seq<string>): (m: seq<string>)
    ensures forall k :: k in m <==> k in keys && (k !in data || data[k] == "")
    ensures IsSubsequence(m, keys)
  {
    if keys == [] then []
    else
      var rest := Missing(data, keys[1..]);
      assert keys == [keys[0]] + keys[1..];
      if keys[0] !in data || data[keys[0]] == "" then
        assert ([keys[0]] + rest)[1..] == rest;
        [keys[0]] + rest
      else
        SubsequenceDropFront(rest, keys);
        rest
  }

  /** `a` is obtained from `b` by deleting elements (order is kept). */
  predicate IsSubsequence(a: seq<string>, b: seq<string>)
    decreases |b|
  {
    if a == [] then true
    else if b == [] then false
    else if a[0] == b[0] then IsSubsequence(a[1..], b[1..])
    else IsSubsequence(a, b[1..])
  }

  /** Skipping the head of `b` keeps `a` a subsequence of it. */
  lemma SubsequenceDropFront(a: seq<string>, b: seq<string>)
    requires b != [] && IsSubsequence(a, b[1..])
    ensures IsSubsequence(a, b)
    decreases |b|, 1
  {
    if a != [] && a[0] == b[0] {
      SubsequenceTail(a, b[1..]);
    }
  }

  lemma SubsequenceTail(a: seq<string>, b: seq<string>)
    requires a != [] && IsSubsequence(a, b)
    ensures IsSubsequence(a[1..], b)
    decreases |b|, 2
  {
    if a[0] != b[0] {
      SubsequenceTail(a, b[1..]);
    }
    SubsequenceDropFront(a[1..], b);
  }

  /** `data[k]` exists and is not empty. */
  predicate Present(data: map<string, string>, k: string) {
    k in data && data[k] != ""
  }

  /** No required field is missing exactly when all six are present. */
  lemma NoneMissing(data: map<string, string>)
    ensures Missing(data, Required) == [] <==>
      Present(data, "NS") && Present(data, "PRD") && Present(data, "DSC")
      && Present(data, "LOT") && Present(data, "FEC") && Present(data, "VTO")
  {
    var m := Missing(data, Required);
    assert Required[0] == "NS" && Required[1] == "PRD" && Required[2] == "DSC";
    assert Required[3] == "LOT" && Required[4] == "FEC" && Required[5] == "VTO";
    if m != [] {
      assert m[0] in Required;
    }
  }

  /** The part of `parse_qr_payload` after the dictionary is built: the
      missing-field check, then the record. */
  function ParseFields(data: map<string, string>): (r: Result<ScanRecord, ParseError>)
    ensures r != Failure(UnrecognizedFormat)
    ensures r.Failure? && r.error.MissingFields? <==> Missing(data, Required) != []
    ensures r.Failure? && r.error.MissingFields? ==> r.error.keys == Missing(data, Required)
    ensures r.Success? ==>
      && Present(data, "NS") && Present(data, "PRD") && Present(data, "DSC")
      && Present(data, "LOT") && Present(data, "FEC") && Present(data, "VTO")
      && r.value.descripcion == data["DSC"]
      && ParseInt(data["NS"]) == Some(r.value.nroSerie)
      && IntegralDecimal(Trim(data["PRD"])) == Some(r.value.idProducto)
      && r.value.lote == Trim(data["LOT"])
      && r.value.creacion == NormalizeDate(data["FEC"])
      && r.value.vencimiento == NormalizeDate(data["VTO"])
  {
    var missing := Missing(data, Required);
    NoneMissing(data);
    if missing != [] then Failure(MissingFields(missing))
    else MakeRecord(data["NS"], data["PRD"], data["DSC"], data["LOT"], data["FEC"], data["VTO"])
  }

  /** The record built from the six values, whose `int()` conversions run
      NS before PRD. */
  function MakeRecord(ns: string, prd: string, dsc: string, lot: string, fec: string, vto: string)
    : (r: Result<ScanRecord, ParseError>)
    ensures r.Failure? <==> ParseInt(ns).None? || IntegralDecimal(Trim(prd)).None?
    ensures r.Failure? ==> r.error == NotAnInteger(if ParseInt(ns).None? then "NS" else "PRD")
    ensures r.Success? ==>
      && r.value.descripcion == dsc
      && ParseInt(ns) == Some(r.value.nroSerie)
      && IntegralDecimal(Trim(prd)) == Some(r.value.idProducto)
      && r.value.lote == Trim(lot)
      && r.value.creacion == NormalizeDate(fec)
      && r.value.vencimiento == NormalizeDate(vto)
  {
    match ParseInt(ns)
    case None => Failure(NotAnInteger("NS"))
    case Some(n) =>
      ProductIdOfNormalizeId(prd);
      match ParseInt(NormalizeId(prd))
      case None => Failure(NotAnInteger("PRD"))
      case Some(p) => Success(ScanRecord(dsc, n, p, Trim(lot), NormalizeDate(fec), NormalizeDate(vto)))
  }

  /** The line has the shape `parse_qr_payload` first checks for: some `|`
      and some `=`. */
  predicate HasSeparators(t: string) {
    '|' in t && '=' in t
  }

  /** Python's `parse_qr_payload(raw)`. */
  function Parse(raw: string): (r: Result<ScanRecord, ParseError>)
    ensures r == Failure(UnrecognizedFormat) <==> !HasSeparators(Trim(raw))
    ensures r != Failure(UnrecognizedFormat) ==> r == ParseFields(Fields(Split(Trim(raw), '|')))
  {
    var t := Trim(raw);
    if HasSeparators(t) then ParseFields(Fields(Split(t, '|')))
    else Failure(UnrecognizedFormat)
  }

  /** A line with no surrounding blanks that has both separators is parsed
      from its segments directly. */
  lemma ParseOfStripped(raw: string)
    requires Trim(raw) == raw && HasSeparators(raw)
    ensures Parse(raw) == ParseFields(Fields(Split(raw, '|')))
  {
  }

  /** Blanks around the whole line never change the outcome: the scanner
      may hand over the text with or without its trailing newline. */
  lemma ParseIgnoresSurroundingBlanks(raw: string)
    ensures Parse(Trim(raw)) == Parse(raw)
  {
    TrimIdempotent(raw);
  }

  /** What a successful parse reads from the segments of the line: each of
      the six fields comes from the last segment that assigns its key, with
      NS read by `int()`, PRD through the product-code normaliser, the lot
      and description as stripped, and the two dates normalised. */
  lemma ParseReadsSegments(raw: string, k: string, i: int)
    requires Parse(raw).Success?
    requires var parts := Split(Trim(raw), '|');
      && 0 <= i < |parts| && Assigns(parts[i], k)
      && forall j :: i < j < |parts| ==> !Assigns(parts[j], k)
    ensures var rec := Parse(raw).value;
      var v := ValueOf(Split(Trim(raw), '|')[i]);
      && (k == "NS" ==> ParseInt(v) == Some(rec.nroSerie))
      && (k == "PRD" ==> IntegralDecimal(v) == Some(rec.idProducto))
      && (k == "DSC" ==> rec.descripcion == v)
      && (k == "LOT" ==> rec.lote == v)
      && (k == "FEC" ==> rec.creacion == NormalizeDate(v))
      && (k == "VTO" ==> rec.vencimiento == NormalizeDate(v))
  {
    var parts := Split(Trim(raw), '|');
    var data := Fields(parts);
    assert Parse(raw) == ParseFields(data);
    FieldsLastWins(parts, k, i);
    assert data[k] == ValueOf(parts[i]);
    TrimTrimmed(data[k]);
  }

  /** What a successful parse guarantees about the record: every text field
      is stripped and the description and the lot are non-empty. */
  lemma ParseSuccess(raw: string)
    requires Parse(raw).Success?
    ensures var rec := Parse(raw).value;
      && IsTrimmed(rec.descripcion) && rec.descripcion != ""
      && IsTrimmed(rec.lote) && rec.lote != ""
      && IsTrimmed(rec.creacion) && IsTrimmed(rec.vencimiento)
  {
    var parts := Split(Trim(raw), '|');
    var data := Fields(parts);
    var rec := ParseFields(data).value;
    assert Parse(raw) == ParseFields(data);
    assert Present(data, "DSC") && Present(data, "LOT");
    FieldsTrimmed(parts, "DSC");
    FieldsTrimmed(parts, "LOT");
    TrimTrimmed(data["LOT"]);
    assert rec.lote == data["LOT"];
  }

  /** Keys outside NS, PRD, DSC, LOT, FEC and VTO do not affect the result. */
  lemma UnknownKeyIgnored(data: map<string, string>, k: string, v: string)
    requires k !in Required
    ensures ParseFields(data[k := v]) == ParseFields(data)
  {
    var d2 := data[k := v];
    MissingIgnores(data, k, v, Required);
    assert Required == ["NS", "PRD", "DSC", "LOT", "FEC", "VTO"];
    assert k != "NS" && k != "PRD" && k != "DSC" && k != "LOT" && k != "FEC" && k != "VTO";
    if Missing(data, Required) == [] {
      NoneMissing(data);
      assert d2["NS"] == data["NS"] && d2["PRD"] == data["PRD"] && d2["DSC"] == data["DSC"];
      assert d2["LOT"] == data["LOT"] && d2["FEC"] == data["FEC"] && d2["VTO"] == data["VTO"];
    }
  }

  lemma {:induction false} MissingIgnores(data: map<string, string>, k: string, v: string, keys: seq<string>)
    requires k !in keys
    ensures Missing(data[k := v], keys) == Missing(data, keys)
  {
    if keys != [] {
      MissingIgnores(data, k, v, keys[1..]);
    }
  }

  /** Appending one segment to the segment list updates the dictionary as a
      `dict` assignment would, and a segment without `=` changes nothing. */
  lemma FieldsAppend(parts: seq<string>, p: string)
    ensures '=' !in p ==> Fields(parts + [p]) == Fields(parts)
    ensures '=' in p ==> Fields(parts + [p]) == Fields(parts)[KeyOf(p) := ValueOf(p)]
  {
    if '=' in p {
      FieldsAppendAssigns(parts, p);
    } else {
      FieldsAppendSkips(parts, p);
    }
  }

  lemma FieldsAppendAssigns(parts: seq<string>, p: string)
    requires '=' in p
    ensures Fields(parts + [p]) == Fields(parts)[KeyOf(p) := ValueOf(p)]
  {
    var q := parts + [p];
    assert q[..|q| - 1] == parts && q[|q| - 1] == p;
    assert Fields(q) == Assign(Fields(parts), p);
  }

  lemma FieldsAppendSkips(parts: seq<string>, p: string)
    requires '=' !in p
    ensures Fields(parts + [p]) == Fields(parts)
  {
    assert (parts + [p])[..|parts|] == parts;
  }
}

=== FILE: results.dfy ===
/** Failure-carrying wrappers shared by every module of the model: the Python
    code signals "no row" with None and domain errors with exceptions; here
    both are values. */
module Results {

  /** A value that may be absent (a SQL `fetchone()` that found no row,
      a lookup that missed). */
  datatype Option<+T> = None | Some(value: T)

  /** The outcome of an operation that either produces a value or fails
      with a domain error (the Python code raises `ValueError` instead). */
  datatype Result<+T, +E> = Success(value: T) | Failure(error: E)
}

=== FILE: scan_flow.dfy ===
/** The range-scanning station of escaner.py as a state machine. The
    operator scans the first label of a run of pallets, then the last one;
    when the toggle "last pallet partial" is on, the station then asks for
    the packs on that last pallet. Each completed run is committed as one
    inbound range. */
module ScanFlow {
  import opened Results
  import opened Text
  import opened QrPayload
  import opened Ledger
  import opened Outbox

  /** `flow["await"]` with the scans it has kept. */
  datatype Await =
    | AwaitStart
    | AwaitEnd(start: ScanRecord)
    | AwaitPacks(start: ScanRecord, end: ScanRecord)

  /** The station: the flow, the toggle, and the inbound table. */
  datatype Station = Station(await: Await, partial: bool, ranges: seq<Range>, nextRangeId: int)

  /** The three inputs: Enter in the scan field, Enter in the packs field,
      and a change of the toggle. */
  datatype Event =
    | Scan(text: string)
    | PacksEnter(text: string)
    | Toggle(on: bool)

  /** Why a commit is refused. */
  datatype CommitError = Mismatch

  /** What the station shows after an event. */
  datatype Report =
    | Nothing
    | ScanFailed(cause: ParseError)
    | StartRecorded
    | AskPacks
    | StillInPacksMode
    | InvalidPacks
    | CommitFailed(error: CommitError)
    | Committed(range: Range, movement: Stock, totals: Stock)

  /** `commit_range`: both scans must name the same product and lot; the
      range spans the smaller to the larger serial. */
  function CommitRange(id: int, start: ScanRecord, end: ScanRecord, packsFin: int): (r: Result<Range, CommitError>)
    ensures r.Failure? <==> start.idProducto != end.idProducto || start.lote != end.lote
    ensures r.Success? ==>
      && r.value.id == id
      && r.value.idProducto == start.idProducto
      && r.value.lote == Trim(start.lote)
      && r.value.serieInicio <= r.value.serieFin
      && {r.value.serieInicio, r.value.serieFin} == {start.nroSerie, end.nroSerie}
      && r.value.packsFin == packsFin
  {
    if start.idProducto != end.idProducto || start.lote != end.lote then Failure(Mismatch)
    else
      var si := start.nroSerie;
      var sf := end.nroSerie;
      Success(Range(id, start.idProducto, Trim(start.lote),
                    if si <= sf then si else sf, if si <= sf then sf else si, packsFin))
  }

  /** Scanning the two ends in either order commits the same range, so the
      packs of a partial pallet always go to the larger serial. */
  lemma CommitSymmetric(id: int, a: ScanRecord, b: ScanRecord, packsFin: int)
    ensures CommitRange(id, a, b, packsFin) == CommitRange(id, b, a, packsFin)
  {
  }

  /** Two scans name the same product and lot. */
  predicate SameLot(a: ScanRecord, b: ScanRecord) {
    a.idProducto == b.idProducto && a.lote == b.lote
  }

  /** Commit a range and go back to waiting for a start scan (`reset_flow`),
      whatever the outcome; the toggle keeps its position. A refused commit
      stores nothing. A stored range goes last under the next id, and the
      report carries it, what it adds, and the totals of its product and lot
      before plus that addition. */
  function Commit(st: Station, start: ScanRecord, end: ScanRecord, packsFin: int): (res: (Station, Report))
    ensures res.0.await == AwaitStart && res.0.partial == st.partial
    ensures res.1.Committed? <==> SameLot(start, end)
    ensures !SameLot(start, end) ==> res.0 == st.(await := AwaitStart) && res.1 == CommitFailed(Mismatch)
    ensures res.1.Committed? ==>
      var r := res.1.range;
      && CommitRange(st.nextRangeId, start, end, packsFin) == Success(r)
      && res.0.ranges == st.ranges + [r]
      && res.0.nextRangeId == st.nextRangeId + 1
      && res.1.movement == Contribution(r)
      && res.1.totals == Plus(InboundTotals(st.ranges, r.idProducto, r.lote), Contribution(r))
  {
    match CommitRange(st.nextRangeId, start, end, packsFin)
    case Failure(e) => (st.(await := AwaitStart), CommitFailed(e))
    case Success(r) =>
      var ranges := st.ranges + [r];
      InboundAppend(st.ranges, r, r.idProducto, r.lote);
      (Station(AwaitStart, st.partial, ranges, st.nextRangeId + 1),
       Committed(r, Contribution(r), InboundTotals(ranges, r.idProducto, r.lote)))
  }

  /** `on_scan_return`, `on_packs_return` and `on_toggle_changed`. */
  function Step(st: Station, ev: Event): (res: (Station, Report))
  {
    match ev
    case Scan(text) => OnScan(st, text)
    case PacksEnter(text) => OnPacks(st, text)
    case Toggle(on) => OnToggle(st, on)
  }

  /** `on_scan_return`. */
  function OnScan(st: Station, text: string): (res: (Station, Report))
  {
    var raw := Trim(text);
    if raw == "" then (st, Nothing) else OnParsed(st, Parse(raw))
  }

  /** `on_scan_return` once the non-blank scan is parsed. */
  function OnParsed(st: Station, p: Result<ScanRecord, ParseError>): (res: (Station, Report))
  {
    match p
    case Failure(e) => (st.(await := AwaitStart), ScanFailed(e))
    case Success(rec) =>
      match st.await
      case AwaitStart => (st.(await := AwaitEnd(rec)), StartRecorded)
      case AwaitEnd(start) =>
        if !st.partial then Commit(st, start, rec, 0)
        else (st.(await := AwaitPacks(start, rec)), AskPacks)
      case AwaitPacks(_, _) => (st, StillInPacksMode)
  }

  /** `on_packs_return`. */
  function OnPacks(st: Station, text: string): (res: (Station, Report))
  {
    match st.await
    case AwaitPacks(start, end) =>
      if !st.partial then Commit(st, start, end, 0)
      else
        (match PositiveInt(text)
         case None => (st, InvalidPacks)
         case Some(p) => Commit(st, start, end, p))
    case _ => (st, Nothing)
  }

  /** `on_toggle_changed`: the toggle's new position is already set when the
      handler runs. */
  function OnToggle(st: Station, on: bool): (res: (Station, Report))
  {
    var st1 := st.(partial := on);
    match st.await
    case AwaitPacks(start, end) =>
      if !on then Commit(st1, start, end, 0) else (st1, Nothing)
    case _ => (st1, Nothing)
  }

  /** The station's invariant: every committed range is well formed and
      the packs of a partial pallet are a positive count or 0, and the
      packs step is only reached with the toggle on. */
  predicate Inv(st: Station) {
    && (forall i :: 0 <= i < |st.ranges| ==> WellFormed(st.ranges[i]))
    && (st.await.AwaitPacks? ==> st.partial)
  }

  /** `after` is `before` or `before` with one range appended. */
  predicate AtMostOneMore(before: seq<Range>, after: seq<Range>) {
    after == before || (|after| == |before| + 1 && after[..|before|] == before)
  }

  /** Every event keeps the invariant, and commits at most one range, the
      new one going last. */
  lemma StepKeepsInv(st: Station, ev: Event)
    requires Inv(st)
    ensures Inv(Step(st, ev).0) && AtMostOneMore(st.ranges, Step(st, ev).0.ranges)
  {
    match ev
    case Scan(text) => ScanKeepsInv(st, text);
    case PacksEnter(text) => PacksKeepsInv(st, text);
    case Toggle(on) => ToggleKeepsInv(st, on);
  }

  lemma ScanKeepsInv(st: Station, text: string)
    requires Inv(st)
    ensures Inv(OnScan(st, text).0) && AtMostOneMore(st.ranges, OnScan(st, text).0.ranges)
  {
    var raw := Trim(text);
    if raw != "" {
      ParsedKeepsInv(st, Parse(raw));
    }
  }

  lemma ParsedKeepsInv(st: Station, p: Result<ScanRecord, ParseError>)
    requires Inv(st)
    ensures Inv(OnParsed(st, p).0) && AtMostOneMore(st.ranges, OnParsed(st, p).0.ranges)
  {
    if p.Success? && st.await.AwaitEnd? && !st.partial {
      CommitKeepsInv(st, st.await.start, p.value, 0);
    }
  }

  lemma PacksKeepsInv(st: Station, text: string)
    requires Inv(st)
    ensures Inv(OnPacks(st, text).0) && AtMostOneMore(st.ranges, OnPacks(st, text).0.ranges)
  {
    if st.await.AwaitPacks? {
      if PositiveInt(text).Some? {
        CommitKeepsInv(st, st.await.start, st.await.end, PositiveInt(text).value);
      }
    }
  }

  lemma ToggleKeepsInv(st: Station, on: bool)
    requires Inv(st)
    ensures Inv(OnToggle(st, on).0) && AtMostOneMore(st.ranges, OnToggle(st, on).0.ranges)
  {
    if st.await.AwaitPacks? && !on {
      CommitKeepsInv(st.(partial := on), st.await.start, st.await.end, 0);
    }
  }

  /** A commit with a count of packs that is 0 or positive keeps the
      invariant and appends at most one range. */
  lemma CommitKeepsInv(st: Station, start: ScanRecord, end: ScanRecord, packsFin: int)
    requires forall i :: 0 <= i < |st.ranges| ==> WellFormed(st.ranges[i])
    requires packsFin >= 0
    ensures Inv(Commit(st, start, end, packsFin).0)
    ensures AtMostOneMore(st.ranges, Commit(st, start, end, packsFin).0.ranges)
  {
    var c := CommitRange(st.nextRangeId, start, end, packsFin);
    if c.Success? {
      assert WellFormed(c.value);
      AppendWellFormed(st.ranges, c.value);
      assert Commit(st, start, end, packsFin).0.ranges == st.ranges + [c.value];
    } else {
      assert Commit(st, start, end, packsFin).0.ranges == st.ranges;
    }
  }

  /** Appending a well-formed range to well-formed ones. */
  lemma AppendWellFormed(ranges: seq<Range>, r: Range)
    requires forall i :: 0 <= i < |ranges| ==> WellFormed(ranges[i])
    requires WellFormed(r)
    ensures forall i :: 0 <= i < |ranges + [r]| ==> WellFormed((ranges + [r])[i])
    ensures AtMostOneMore(ranges, ranges + [r])
  {
    assert (ranges + [r])[..|ranges|] == ranges;
  }

  /** What a scan does to the inbound table: a blank field changes
      nothing; a scan stores a range exactly when it is a readable end scan,
      with the toggle off, of the same product and lot as the start scan,
      and the range then spans the two serials with no loose packs; an
      unreadable scan drops the scans kept so far. */
  lemma ScanCommits(st: Station, text: string)
    ensures var (st', rep) := Step(st, Scan(text));
      var p := Parse(Trim(text));
      && (Trim(text) == "" ==> st' == st && rep == Nothing)
      && (rep.Committed? <==>
            Trim(text) != "" && p.Success? && st.await.AwaitEnd? && !st.partial
            && SameLot(st.await.start, p.value))
      && (!rep.Committed? ==> st'.ranges == st.ranges)
      && (rep.Committed? ==>
            && st'.ranges == st.ranges + [rep.range]
            && rep.range.packsFin == 0
            && {rep.range.serieInicio, rep.range.serieFin} == {st.await.start.nroSerie, p.value.nroSerie})
      && (Trim(text) != "" && p.Failure? ==> st'.await == AwaitStart && rep == ScanFailed(p.error))
      && (Trim(text) != "" && p.Success? && st.await.AwaitStart? ==>
            st' == st.(await := AwaitEnd(p.value)) && rep == StartRecorded)
      && (Trim(text) != "" && p.Success? && st.await.AwaitEnd? && st.partial ==>
            st' == st.(await := AwaitPacks(st.await.start, p.value)) && rep == AskPacks)
      && (Trim(text) != "" && p.Success? && st.await.AwaitPacks? ==> st' == st && rep == StillInPacksMode)
  {
    var raw := Trim(text);
    if raw != "" {
      var p := Parse(raw);
      if p.Success? && st.await.AwaitEnd? && !st.partial {
        assert Step(st, Scan(text)) == Commit(st, st.await.start, p.value, 0);
      }
    }
  }

  /** A readable scan at the start is kept as the start of the run. */
  lemma StartScanKept(st: Station, text: string)
    requires st.await == AwaitStart
    requires Trim(text) != "" && Parse(Trim(text)).Success?
    ensures Step(st, Scan(text)) == (st.(await := AwaitEnd(Parse(Trim(text)).value)), StartRecorded)
  {
  }

  /** A readable end scan commits with the toggle off, and otherwise moves
      to the packs step keeping both scans. */
  lemma EndScanSteps(st: Station, text: string)
    requires st.await.AwaitEnd?
    requires Trim(text) != "" && Parse(Trim(text)).Success?
    ensures var rec := Parse(Trim(text)).value;
      && (!st.partial ==> Step(st, Scan(text)) == Commit(st, st.await.start, rec, 0))
      && (st.partial ==> Step(st, Scan(text)) == (st.(await := AwaitPacks(st.await.start, rec)), AskPacks))
  {
  }

  /** A count of at least 1 in the packs step, with the toggle on, commits
      the pending pair with that many packs. */
  lemma PacksStepCommits(st: Station, text: string)
    requires st.await.AwaitPacks? && st.partial && PositiveInt(text).Some?
    ensures Step(st, PacksEnter(text)) == Commit(st, st.await.start, st.await.end, PositiveInt(text).value)
  {
  }

  /** A whole run from the start scan: a readable first scan `a` is kept as
      the start; a readable second scan `b` then commits, with the toggle
      off, the range of the two scans with no packs, and with the toggle on
      asks for packs, after which a count of at least 1 commits the range
      with that many packs. A commit happens exactly when the two scans name
      the same product and lot, and the station is back at the start scan
      either way. */
  lemma RunsCommit(st: Station, a: string, b: string, packs: string)
    requires st.await == AwaitStart
    requires Trim(a) != "" && Parse(Trim(a)).Success?
    requires Trim(b) != "" && Parse(Trim(b)).Success?
    ensures var ra, rb := Parse(Trim(a)).value, Parse(Trim(b)).value;
      var first := Step(st, Scan(a));
      var second := Step(first.0, Scan(b));
      var third := Step(second.0, PacksEnter(packs));
      && first.1 == StartRecorded && first.0.await == AwaitEnd(ra)
      && (!st.partial ==>
            && second.0.await == AwaitStart
            && (second.1.Committed? <==> SameLot(ra, rb))
            && (second.1.Committed? ==>
                  CommitRange(st.nextRangeId, ra, rb, 0) == Success(second.1.range)
                  && second.0.ranges == st.ranges + [second.1.range]))
      && (st.partial ==> second.1 == AskPacks && second.0.await == AwaitPacks(ra, rb))
      && (st.partial && PositiveInt(packs).Some? ==>
            && third.0.await == AwaitStart
            && (third.1.Committed? <==> SameLot(ra, rb))
            && (third.1.Committed? ==>
                  CommitRange(st.nextRangeId, ra, rb, PositiveInt(packs).value) == Success(third.1.range)
                  && third.0.ranges == st.ranges + [third.1.range]))
  {
    var ra, rb := Parse(Trim(a)).value, Parse(Trim(b)).value;
    StartScanKept(st, a);
    var s1 := st.(await := AwaitEnd(ra));
    EndScanSteps(s1, b);
    if st.partial && PositiveInt(packs).Some? {
      PacksStepCommits(s1.(await := AwaitPacks(ra, rb)), packs);
    }
  }

  /** What the packs field does to the inbound table: outside the packs
      step nothing happens; in it, with the toggle on, text that is not a
      count of at least 1 keeps the station waiting and stores nothing, and
      a valid count stores the range, for a matching pair of scans, with
      that many packs on its last pallet; with the toggle off the pair is
      stored as complete pallets. */
  lemma PacksCommits(st: Station, text: string)
    ensures var (st', rep) := Step(st, PacksEnter(text));
      && (!st.await.AwaitPacks? ==> st' == st && rep == Nothing)
      && (st.await.AwaitPacks? && st.partial && PositiveInt(text).None? ==> st' == st && rep == InvalidPacks)
      && (rep.Committed? <==>
            st.await.AwaitPacks? && (!st.partial || PositiveInt(text).Some?)
            && SameLot(st.await.start, st.await.end))
      && (!rep.Committed? ==> st'.ranges == st.ranges)
      && (rep.Committed? ==>
            && st'.ranges == st.ranges + [rep.range]
            && rep.range.packsFin == if st.partial then PositiveInt(text).value else 0)
  {
    if st.await.AwaitPacks? {
      assert Step(st, PacksEnter(text)) == OnPacks(st, text);
      if st.partial {
        match PositiveInt(text)
        case None =>
        case Some(p) =>
          assert OnPacks(st, text) == Commit(st, st.await.start, st.await.end, p);
      }
    }
  }

  /** What the toggle does to the inbound table: switching it off while
      packs are awaited stores the pending pair, if it matches, as complete
      pallets and returns to the start scan; any other change of the toggle
      only records its position. */
  lemma ToggleCommits(st: Station, on: bool)
    ensures var (st', rep) := Step(st, Toggle(on));
      && st'.partial == on
      && (rep.Committed? <==> st.await.AwaitPacks? && !on && SameLot(st.await.start, st.await.end))
      && (!rep.Committed? ==> st'.ranges == st.ranges)
      && (rep.Committed? ==> st'.ranges == st.ranges + [rep.range] && rep.range.packsFin == 0)
      && (st.await.AwaitPacks? && !on ==> st'.await == AwaitStart)
      && (!(st.await.AwaitPacks? && !on) ==> st' == st.(partial := on) && rep == Nothing)
  {
    if st.await.AwaitPacks? && !on {
      assert Step(st, Toggle(on)) == Commit(st.(partial := on), st.await.start, st.await.end, 0);
    }
  }

  /** A commit adds exactly the movement it reports to the totals of its
      product and lot; the movement is the range's own pallet count and its
      packs. */
  lemma CommitTotals(st: Station, start: ScanRecord, end: ScanRecord, packsFin: int)
    requires Commit(st, start, end, packsFin).1.Committed?
    ensures var rep := Commit(st, start, end, packsFin).1;
      var r := rep.range;
      && rep.totals == Plus(InboundTotals(st.ranges, r.idProducto, r.lote), rep.movement)
      && rep.movement.pallets == (r.serieFin - r.serieInicio + 1) - (if packsFin > 0 then 1 else 0)
      && rep.movement.packs == packsFin
  {
    var r := Commit(st, start, end, packsFin).1.range;
    InboundAppend(st.ranges, r, r.idProducto, r.lote);
  }

  /** The handler with its side effects: the step, then, after a commit,
      the inbound totals published through the outbox. The station's state
      does not depend on what the spreadsheet endpoint answers. */
  method Handle(st: Station, products: seq<Product>, queue: Queue<StockUpdate>,
                ev: Event, send: StockUpdate -> Reply)
    returns (st': Station, queue': Queue<StockUpdate>, rep: Report, sent: nat)
    ensures (st', rep) == Step(st, ev)
    ensures !rep.Committed? ==> queue' == queue
    ensures rep.Committed? ==>
      var u := InboundUpdate(products, st'.ranges, rep.range.idProducto, rep.range.lote);
      IsSuffix(queue'.messages, queue.messages + [Message(queue.nextId, u)])
        && Delivered(queue, u, send, queue', sent)
    ensures !rep.Committed? ==> sent == 0
  {
    var res := Step(st, ev);
    st' := res.0;
    rep := res.1;
    queue' := queue;
    sent := 0;
    if rep.Committed? {
      var u := InboundUpdate(products, st'.ranges, rep.range.idProducto, rep.range.lote);
      queue', sent := Publish(queue, u, send);
    }
  }
}

=== FILE: scenarios.dfy ===
/** Concrete scenarios the programs' documentation walks through, stated
    on the model. */
module Scenarios {
  import opened Results
  import opened Text
  import opened Normalize
  import opened QrPayload
  import opened Generation
  import opened Ledger
  import opened Outbox

  lemma Pad2One()
    ensures Pad2(1) == "01"
  {
    assert NatToString(1) == "1";
    assert Zeros(1) == "0";
  }

  lemma Pad2Seven()
    ensures Pad2(7) == "07"
  {
    assert NatToString(7) == "7";
    assert Zeros(1) == "0";
  }

  lemma Pad2TwentyFour()
    ensures Pad2(24) == "24"
  {
    assert NatToString(2) == "2";
    assert NatToString(24) == NatToString(2) + [DigitChar(4)];
  }

  lemma Year2024()
    ensures PadZeros(NatToString(2024), 4) == "2024"
  {
    assert NatToString(2) == "2";
    assert NatToString(20) == NatToString(2) + [DigitChar(0)];
    assert NatToString(202) == NatToString(20) + [DigitChar(2)];
    assert NatToString(2024) == NatToString(202) + [DigitChar(4)];
  }

  lemma IsoJanuary()
    ensures FormatIso(Date(2024, 1, 1)) == "2024-01-01"
  {
    Year2024();
    Pad2One();
  }

  lemma IsoJuly()
    ensures FormatIso(Date(2024, 7, 1)) == "2024-07-01"
  {
    Year2024();
    Pad2One();
    Pad2Seven();
  }

  lemma DmyJanuary()
    ensures FormatDayMonthYear(Date(2024, 1, 1)) == "01/01/24"
  {
    FormatDayMonthYearShape(Date(2024, 1, 1));
    Pad2One();
    Pad2TwentyFour();
  }

  lemma DmyJuly()
    ensures FormatDayMonthYear(Date(2024, 7, 1)) == "01/07/24"
  {
    FormatDayMonthYearShape(Date(2024, 7, 1));
    Pad2One();
    Pad2Seven();
    Pad2TwentyFour();
  }

  /** The two dates of the sample label. */
  lemma SampleDates()
    ensures NormalizeDate("01/01/24") == "2024-01-01"
    ensures NormalizeDate("01/07/24") == "2024-07-01"
  {
    DmyJanuary();
    IsoJanuary();
    NormalizeDateRoundTrip(Date(2024, 1, 1));
    DmyJuly();
    IsoJuly();
    NormalizeDateRoundTrip(Date(2024, 7, 1));
  }

  /** The sample label text. */
  const SampleLabel: string :=
    "NS=000007" + "|" + "PRD=42.0" + "|" + "DSC=Widget" + "|" + "LOT=010124" + "|" + "FEC=01/01/24" + "|" + "VTO=01/07/24"

  /** The sample label is the `|`-join of its six segments. */
  lemma SampleSegments()
    ensures SampleLabel == Join(Fields6("000007", "42.0", "Widget", "010124", "01/01/24", "01/07/24"), '|')
  {
    var a, b, c := Segment("NS", "000007"), Segment("PRD", "42.0"), Segment("DSC", "Widget");
    var d, e, f := Segment("LOT", "010124"), Segment("FEC", "01/01/24"), Segment("VTO", "01/07/24");
    assert Fields6("000007", "42.0", "Widget", "010124", "01/01/24", "01/07/24") == [a] + [b] + [c] + [d] + [e] + [f];
    JoinSix(a, b, c, d, e, f, '|');
    assert a == "NS=000007" && b == "PRD=42.0" && c == "DSC=Widget";
    assert d == "LOT=010124" && e == "FEC=01/01/24" && f == "VTO=01/07/24";
  }

  lemma SampleValuesTrimmed()
    ensures Trim("000007") == "000007" && Trim("42.0") == "42.0" && Trim("Widget") == "Widget"
    ensures Trim("010124") == "010124" && Trim("01/01/24") == "01/01/24" && Trim("01/07/24") == "01/07/24"
  {
    TrimTrimmed("000007");
    TrimTrimmed("42.0");
    TrimTrimmed("Widget");
    TrimTrimmed("010124");
    TrimTrimmed("01/01/24");
    TrimTrimmed("01/07/24");
  }

  lemma SampleSerial()
    ensures ParseInt("000007") == Some(7)
  {
    DigitsParse("000007");
    assert DigitsValue("000007"[..5]) == 0 by {
      ZerosValue(5);
      assert "000007"[..5] == Zeros(5);
    }
  }

  /** The scanner's dictionary for the sample label. */
  lemma SampleData()
    ensures Trim(SampleLabel) == SampleLabel && HasSeparators(SampleLabel)
    ensures SampleFields(Fields(Split(SampleLabel, '|')))
  {
    SampleSegments();
    SampleValuesTrimmed();
    ReadSix("000007", "42.0", "Widget", "010124", "01/01/24", "01/07/24");
  }

  predicate SampleFields(data: map<string, string>) {
    && "NS" in data && data["NS"] == "000007"
    && "PRD" in data && data["PRD"] == "42.0"
    && "DSC" in data && data["DSC"] == "Widget"
    && "LOT" in data && data["LOT"] == "010124"
    && "FEC" in data && data["FEC"] == "01/01/24"
    && "VTO" in data && data["VTO"] == "01/07/24"
  }

  lemma SampleRecord(data: map<string, string>)
    requires SampleFields(data)
    ensures ParseFields(data) == Success(ScanRecord("Widget", 7, 42, "010124", "2024-01-01", "2024-07-01"))
  {
    NoneMissing(data);
    SampleValuesTrimmed();
    SampleSerial();
    FortyTwoPointZero();
    SampleDates();
  }

  /** The sample label of the documentation: serial 7, product "42.0" read
      as 42, the lot kept, and both dd/mm/yy dates in ISO form. */
  lemma SampleLabelParses()
    ensures Parse(SampleLabel) == Success(ScanRecord("Widget", 7, 42, "010124", "2024-01-01", "2024-07-01"))
  {
    SampleData();
    ParseOfStripped(SampleLabel);
    SampleRecord(Fields(Split(SampleLabel, '|')));
  }

  /** One range of serials 1..10 whose last pallet holds 7 packs, alone in
      the ledger with nothing taken out: the net stock of its product and
      lot is 9 pallets and 7 packs. */
  lemma PartialPalletNet()
    ensures NetStock([Range(1, 1, "A", 1, 10, 7)], [], 1, "A") == Stock(9, 7)
  {
    var r := Range(1, 1, "A", 1, 10, 7);
    assert [r][1..] == [];
    assert InboundTotals([r], 1, "A") == Plus(Contribution(r), Zero);
  }

  /** Three updates queued in turn are delivered in order: a failure of the
      first delivers nothing and keeps all three; a failure of the second
      delivers only the first; three acknowledgements empty the queue. */
  method OrderedDelivery(send: int -> Reply) returns (queued: Queue<int>, left: Queue<int>, sent: nat)
    ensures queued.messages == [Message(0, 1), Message(1, 2), Message(2, 3)]
    ensures send(1) != Ok ==> sent == 0 && left.messages == queued.messages
    ensures send(1) == Ok && send(2) != Ok ==> sent == 1 && left.messages == [Message(1, 2), Message(2, 3)]
    ensures send(1) == Ok && send(2) == Ok && send(3) == Ok ==> sent == 3 && left.messages == []
  {
    queued := Enqueue(Enqueue(Enqueue(Queue([], 0), 1), 2), 3);
    var raised;
    left, sent, raised := Flush(queued, send);
  }
}

=== FILE: text.dfy ===
/** Character-level helpers with Python's semantics: `str.strip()`,
    `str.split(sep)`, `sep.join(parts)`, `int(text)` and `str(n)` for
    base-10 integers. */
module Text {
  import opened Results

  /** The characters for which Python's `str.isspace()` holds; these are the
      ones `str.strip()` and `int()` discard at both ends. */
  predicate IsSpace(c: char) {
    || c == ' '
    || ('\t' <= c <= '\r')
    || ('\U{1C}' <= c <= '\U{1F}')
    || c == '\U{85}' || c == '\U{A0}' || c == '\U{1680}'
    || ('\U{2000}' <= c <= '\U{200A}')
    || c == '\U{2028}' || c == '\U{2029}' || c == '\U{202F}'
    || c == '\U{205F}' || c == '\U{3000}'
  }

  /** True when `s` has no whitespace at either end, i.e. `s.strip() == s`. */
  predicate IsTrimmed(s: string) {
    s == [] || (!IsSpace(s[0]) && !IsSpace(s[|s| - 1]))
  }

  function TrimLeft(s: string): string
  {
    if s != [] && IsSpace(s[0]) then
      TrimLeft(s[1..])
    else s
  }

  function TrimRight(s: string): string
  {
    if s != [] && IsSpace(s[|s| - 1]) then
      TrimRight(s[..|s| - 1])
    else s
  }

  /** `TrimLeft` keeps a suffix that does not start with whitespace. */
  lemma {:induction false} TrimLeftShape(s: string)
    ensures var r := TrimLeft(s);
      |r| <= |s| && r == s[|s| - |r|..] && (r == [] || !IsSpace(r[0]))
  {
    if s != [] && IsSpace(s[0]) {
      TrimLeftShape(s[1..]);
    }
  }

  /** `TrimRight` keeps a prefix that does not end with whitespace. */
  lemma {:induction false} TrimRightShape(s: string)
    ensures var r := TrimRight(s);
      |r| <= |s| && r == s[..|r|] && (r == [] || !IsSpace(r[|r| - 1]))
  {
    if s != [] && IsSpace(s[|s| - 1]) {
      TrimRightShape(s[..|s| - 1]);
    }
  }

  /** What `TrimLeft` drops is whitespace. */
  lemma {:induction false} TrimLeftDropsSpace(s: string)
    ensures forall i :: 0 <= i < |s| - |TrimLeft(s)| ==> IsSpace(s[i])
  {
    if s != [] && IsSpace(s[0]) {
      TrimLeftDropsSpace(s[1..]);
      assert forall i :: 1 <= i < |s| ==> s[i] == s[1..][i - 1];
    }
  }

  /** What `TrimRight` drops is whitespace. */
  lemma {:induction false} TrimRightDropsSpace(s: string)
    ensures forall i :: |TrimRight(s)| <= i < |s| ==> IsSpace(s[i])
  {
    if s != [] && IsSpace(s[|s| - 1]) {
      TrimRightDropsSpace(s[..|s| - 1]);
      assert forall i :: 0 <= i < |s| - 1 ==> s[i] == s[..|s| - 1][i];
    }
  }

  /** Python's `s.strip()`: drops the whitespace at both ends and keeps
      every other character, in order. */
  function Trim(s: string): (r: string)
    ensures IsTrimmed(r)
    ensures |r| <= |s|
  {
    var l := TrimLeft(s);
    var r := TrimRight(l);
    TrimLeftShape(s);
    TrimRightShape(l);
    assert r == [] || !IsSpace(r[0]) by {
      if r != [] { assert r[0] == l[0]; }
    }
    r
  }

  /** Stripping a string that has no whitespace at its ends changes nothing;
      in particular `Trim` is idempotent. */
  lemma TrimTrimmed(s: string)
    requires IsTrimmed(s)
    ensures Trim(s) == s
  {
  }

  /** Stripping keeps every character that is not whitespace. */
  lemma TrimKeeps(s: string, c: char)
    requires !IsSpace(c)
    ensures c in Trim(s) <==> c in s
  {
    TrimLeftKeeps(s, c);
    TrimRightKeeps(TrimLeft(s), c);
  }

  lemma {:induction false} TrimLeftKeeps(s: string, c: char)
    requires !IsSpace(c)
    ensures c in TrimLeft(s) <==> c in s
  {
    if s != [] && IsSpace(s[0]) {
      TrimLeftKeeps(s[1..], c);
      assert s == [s[0]] + s[1..];
    }
  }

  lemma {:induction false} TrimRightKeeps(s: string, c: char)
    requires !IsSpace(c)
    ensures c in TrimRight(s) <==> c in s
  {
    if s != [] && IsSpace(s[|s| - 1]) {
      TrimRightKeeps(s[..|s| - 1], c);
      assert s == s[..|s| - 1] + [s[|s| - 1]];
    }
  }

  /** Stripping adds no character. */
  lemma TrimAddsNothing(s: string, c: char)
    requires c !in s
    ensures c !in Trim(s)
  {
    var l := TrimLeft(s);
    TrimLeftShape(s);
    TrimRightShape(l);
    assert l == s[|s| - |l|..];
    assert Trim(s) == TrimRight(l) == l[..|TrimRight(l)|];
  }

  lemma TrimIdempotent(s: string)
    ensures Trim(Trim(s)) == Trim(s)
  {
    TrimTrimmed(Trim(s));
  }

  /** Position of the first occurrence of `c` in `s` (Python's `s.index(c)`). */
  function IndexOf(s: string, c: char): (i: nat)
    requires c in s
    ensures i < |s| && s[i] == c && c !in s[..i]
  {
    if s[0] == c then 0
    else
      assert s == [s[0]] + s[1..];
      var j := IndexOf(s[1..], c);
      assert s[..j + 1] == [s[0]] + s[1..][..j];
      1 + j
  }

  /** The first occurrence of `c` is the one just after a prefix free of `c`. */
  lemma IndexOfAfterPrefix(a: string, c: char, b: string)
    requires c !in a
    ensures c in a + [c] + b && IndexOf(a + [c] + b, c) == |a|
  {
    var s := a + [c] + b;
    assert s[|a|] == c;
    var i := IndexOf(s, c);
    assert forall j :: 0 <= j < |a| ==> s[j] == a[j];
    assert forall j :: |a| < j <= |s| ==> s[..j][|a|] == c;
  }

  /** Python's `s.split(sep)` for a one-character separator: the pieces
      between separators, always at least one. */
  function Split(s: string, sep: char): (parts: seq<string>)
    ensures |parts| >= 1
    ensures forall i :: 0 <= i < |parts| ==> sep !in parts[i]
    decreases |s|
  {
    if sep in s then
      var i := IndexOf(s, sep);
      [s[..i]] + Split(s[i + 1..], sep)
    else [s]
  }

  /** Python's `sep.join(parts)`. */
  function Join(parts: seq<string>, sep: char): string
  {
    if parts == [] then ""
    else if |parts| == 1 then parts[0]
    else parts[0] + [sep] + Join(parts[1..], sep)
  }

  /** `sep.join([a, b, c])`. */
  lemma Join3(a: string, b: string, c: string, sep: char)
    ensures Join([a, b, c], sep) == a + [sep] + b + [sep] + c
  {
    assert [a, b, c][1..] == [b, c];
    assert [b, c][1..] == [c];
    assert Join([b, c], sep) == b + [sep] + c;
    assert Join([a, b, c], sep) == a + [sep] + Join([b, c], sep);
  }

  /** A join whose last piece is not empty ends with that piece's last
      character. */
  lemma {:induction false} JoinLast(parts: seq<string>, sep: char)
    requires |parts| >= 1 && parts[|parts| - 1] != []
    ensures var s := Join(parts, sep);
      s != [] && s[|s| - 1] == parts[|parts| - 1][|parts[|parts| - 1]| - 1]
  {
    if |parts| > 1 {
      JoinLast(parts[1..], sep);
    }
  }

  /** Splitting and re-joining gives back the original text. */
  lemma {:induction false} JoinSplit(s: string, sep: char)
    ensures Join(Split(s, sep), sep) == s
    decreases |s|
  {
    if sep in s {
      var i := IndexOf(s, sep);
      var rest := Split(s[i + 1..], sep);
      JoinSplit(s[i + 1..], sep);
      assert Split(s, sep) == [s[..i]] + rest;
      assert ([s[..i]] + rest)[1..] == rest;
      assert s == s[..i] + [sep] + s[i + 1..];
    }
  }

  /** Joining pieces that contain no separator and splitting again gives back
      the pieces. */
  lemma {:induction false} SplitJoin(parts: seq<string>, sep: char)
    requires |parts| >= 1
    requires forall i :: 0 <= i < |parts| ==> sep !in parts[i]
    ensures Split(Join(parts, sep), sep) == parts
    decreases |parts|
  {
    if |parts| > 1 {
      var head, rest := parts[0], parts[1..];
      assert forall i :: 0 <= i < |rest| ==> sep !in rest[i] by {
        forall i | 0 <= i < |rest| ensures sep !in rest[i] {
          assert rest[i] == parts[i + 1];
        }
      }
      SplitJoin(rest, sep);
      SplitCons(head, Join(rest, sep), sep);
      assert parts == [head] + rest;
    }
  }

  /** Splitting text that starts with a separator-free piece and a
      separator. */
  lemma SplitCons(head: string, tail: string, sep: char)
    requires sep !in head
    ensures Split(head + [sep] + tail, sep) == [head] + Split(tail, sep)
  {
    var s := head + [sep] + tail;
    IndexOfAfterPrefix(head, sep, tail);
    assert s[..|head|] == head;
    assert s[|head| + 1..] == tail;
  }

  predicate IsDigit(c: char) {
    '0' <= c <= '9'
  }

  predicate AllDigits(s: string) {
    forall i :: 0 <= i < |s| ==> IsDigit(s[i])
  }

  function DigitValue(c: char): (d: nat)
    requires IsDigit(c)
    ensures d < 10
  {
    (c as int) - ('0' as int)
  }

  function DigitChar(d: nat): (c: char)
    requires d < 10
    ensures IsDigit(c) && DigitValue(c) == d
  {
    (('0' as int) + d) as char
  }

  /** The base-10 value of a run of ASCII digits; leading zeros are allowed
      (`int("000007") == 7`). */
  function DigitsValue(s: string): nat
    requires AllDigits(s)
  {
    if s == [] then 0
    else 10 * DigitsValue(s[..|s| - 1]) + DigitValue(s[|s| - 1])
  }

  /** The value of a two-digit run. */
  lemma TwoDigitsValue(s: string)
    requires |s| == 2 && AllDigits(s)
    ensures DigitsValue(s) == 10 * DigitValue(s[0]) + DigitValue(s[1]) < 100
  {
    var h := s[..1];
    assert h[..0] == [] && h[0] == s[0];
    assert DigitsValue(h) == DigitValue(s[0]);
  }

  /** Python's `str(n)` for a non-negative integer: no leading zeros. */
  function NatToString(n: nat): (s: string)
    ensures |s| >= 1 && AllDigits(s)
    ensures DigitsValue(s) == n
    ensures s[0] != '0' || n == 0
    ensures n < 10 <==> |s| == 1
    ensures n < 100 ==> |s| <= 2
    ensures n < 10000 ==> |s| <= 4
  {
    if n < 10 then [DigitChar(n)]
    else
      var s := NatToString(n / 10) + [DigitChar(n % 10)];
      assert s[..|s| - 1] == NatToString(n / 10);
      s
  }

  /** Python's `str(n)` for any integer. */
  function IntToString(n: int): (s: string)
  {
    if n < 0 then "-" + NatToString(-n) else NatToString(n)
  }

  function ApplySign(negative: bool, v: nat): int {
    if negative then 0 - v else v
  }

  /** Python's `int(text)` on a string: surrounding whitespace is ignored,
      then an optional sign and one or more digits; anything else raises
      `ValueError`, modelled as `None`. */
  function ParseInt(text: string): (r: Option<int>)
  {
    ParseIntLiteral(Trim(text))
  }

  /** `int(t)` for text already stripped of surrounding whitespace. */
  function ParseIntLiteral(t: string): (r: Option<int>)
  {
    if |t| >= 1 && (t[0] == '-' || t[0] == '+') then
      if |t| >= 2 && AllDigits(t[1..]) then Some(ApplySign(t[0] == '-', DigitsValue(t[1..])))
      else None
    else if |t| >= 1 && AllDigits(t) then Some(DigitsValue(t))
    else None
  }

  /** A run of digits holds no other character. */
  lemma DigitsExclude(s: string, c: char)
    requires AllDigits(s) && !IsDigit(c)
    ensures c !in s
  {
  }

  /** Digits are not whitespace. */
  lemma DigitNotSpace(c: char)
    requires IsDigit(c)
    ensures !IsSpace(c)
  {
  }

  /** A run of digits has no blank at either end and reads as its value. */
  lemma DigitsParse(d: string)
    requires |d| >= 1 && AllDigits(d)
    ensures IsTrimmed(d) && ParseInt(d) == Some(DigitsValue(d))
  {
    DigitNotSpace(d[0]);
    DigitNotSpace(d[|d| - 1]);
    TrimTrimmed(d);
  }

  /** The same with a minus sign in front. */
  lemma NegativeDigitsParse(d: string)
    requires |d| >= 1 && AllDigits(d)
    ensures IsTrimmed("-" + d) && ParseInt("-" + d) == Some(0 - DigitsValue(d))
  {
    MinusDigitsTrimmed(d);
    MinusDigitsLiteral(d);
  }

  lemma MinusDigitsTrimmed(d: string)
    requires |d| >= 1 && AllDigits(d)
    ensures IsTrimmed("-" + d) && Trim("-" + d) == "-" + d
  {
    var t := "-" + d;
    assert t[0] == '-' && t[|t| - 1] == d[|d| - 1];
    assert !IsSpace('-');
    DigitNotSpace(d[|d| - 1]);
    TrimTrimmed(t);
  }

  lemma MinusDigitsLiteral(d: string)
    requires |d| >= 1 && AllDigits(d)
    ensures ParseIntLiteral("-" + d) == Some(0 - DigitsValue(d))
  {
    var t := "-" + d;
    assert t[0] == '-' && t[1..] == d;
    assert ApplySign(true, DigitsValue(d)) == 0 - DigitsValue(d);
  }

  /** `int(str(n)) == n` for every integer. */
  lemma IntToStringRoundTrip(n: int)
    ensures IsTrimmed(IntToString(n))
    ensures ParseInt(IntToString(n)) == Some(n)
  {
    if n < 0 {
      var d := NatToString(-n);
      NegativeDigitsParse(d);
      assert 0 - DigitsValue(d) == n;
      assert IntToString(n) == "-" + d;
    } else {
      DigitsParse(NatToString(n));
    }
  }

  /** A run of `k` zeros (the padding of Python's `format(n, "0Nd")`). */
  function Zeros(k: nat): (z: string)
    ensures |z| == k && AllDigits(z)
    ensures forall i :: 0 <= i < k ==> z[i] == '0'
  {
    if k == 0 then [] else Zeros(k - 1) + ['0']
  }

  /** Left-pads `s` with zeros up to `width` characters; longer text is kept
      whole. */
  function PadZeros(s: string, width: nat): (r: string)
    ensures |r| == if |s| >= width then |s| else width
  {
    if |s| >= width then s else Zeros(width - |s|) + s
  }

  /** Leading zeros do not change the value of a digit run. */
  lemma {:induction false} DigitsValueLeadingZeros(k: nat, s: string)
    requires AllDigits(s)
    ensures AllDigits(Zeros(k) + s)
    ensures DigitsValue(Zeros(k) + s) == DigitsValue(s)
    decreases |s|
  {
    var z := Zeros(k) + s;
    if s == [] {
      assert z == Zeros(k);
      ZerosValue(k);
    } else {
      DigitsValueLeadingZeros(k, s[..|s| - 1]);
      assert z[..|z| - 1] == Zeros(k) + s[..|s| - 1];
    }
  }

  lemma {:induction false} ZerosValue(k: nat)
    ensures DigitsValue(Zeros(k)) == 0
  {
    if k > 0 {
      ZerosValue(k - 1);
      assert Zeros(k)[..k - 1] == Zeros(k - 1);
    }
  }

  /** A zero-padded rendering of `n` reads back as `n`. */
  lemma PadZerosValue(n: nat, width: nat)
    ensures AllDigits(PadZeros(NatToString(n), width))
    ensures DigitsValue(PadZeros(NatToString(n), width)) == n
  {
    var s := NatToString(n);
    if |s| < width {
      DigitsValueLeadingZeros(width - |s|, s);
    }
  }

  /** Python's `int(text)` restricted to values of at least one: the guard
      both the packs entry and the quantity entry apply. */
  function PositiveInt(text: string): (r: Option<int>)
    ensures r.Some? <==> ParseInt(text).Some? && ParseInt(text).value >= 1
    ensures r.Some? ==> r.value >= 1 && r == ParseInt(text)
  {
    match ParseInt(text)
    case Some(v) => if v >= 1 then Some(v) else None
    case None => None
  }

  /** A count typed as Python prints it is accepted exactly when it is at
      least one, and then as itself: "0" and negative counts are refused. */
  lemma PositiveIntPrinted(n: int)
    ensures PositiveInt(IntToString(n)) == if n >= 1 then Some(n) else None
  {
    IntToStringRoundTrip(n);
  }
}
